=== FILE: README.md ===
# Contact book backend: a Dafny model

This project models the core of a FastAPI contact-management backend:

- **Contacts.** Each user keeps contacts in a relational store: create, read, partial update, delete, paginated listing, search, and an "upcoming birthdays" query. Every read and write is filtered by the owning user.
- **Users.** Users register with a unique username and email, confirm the email through a mailed token, and log in for a JWT bearer token.
- **Authentication.** Every contact route authenticates the caller through `get_current_user`. It decodes the token, reads the user through a Redis cache, and on a miss falls back to the `users` table.

The model treats each piece as a value:

- The store is a `Db` value: maps from primary key to row, plus the next key of each table.
- The cache is a `Redis` value: a keyspace with expiry instants, and a flag for whether the server answers.
- Every repository, service and handler is a pure function from its inputs to a new state and a `Result` or `Response`.
- Uncaught Python exceptions become `Fault`s, and the framework turns them into HTTP 500.
- The clock (`now`, `today`), bcrypt's salt, the Gravatar lookup and the secret key are parameters.

Modules, one per source component:

| module | models |
|---|---|
| `Models` | `src/database/models.py`: the two tables, column widths, uniqueness, the cascade |
| `Query` | what the SQL statements do with rows: `WHERE`, `OFFSET/LIMIT`, `scalar_one_or_none` |
| `Ilike` | PostgreSQL `ILIKE` with its `%`, `_` and `\` wildcards |
| `Calendar` | `datetime.date` and `date + timedelta(days=n)` |
| `BirthdayWindow` | the month/day rule of `upcoming_birthdays`, as written and corrected |
| `ContactRepository` | `src/repository/contacts.py` |
| `ContactService` | `src/services/contacts.py` |
| `ContactsApi` | `src/api/contacts.py` |
| `UserRepository` | `src/repository/users.py` |
| `UserService` | `src/services/users.py` |
| `Jwt` | python-jose's `encode`/`decode` with a shared secret |
| `RedisService` | `src/services/redis_service.py` |
| `AuthService` | `src/services/auth.py` |
| `AuthApi` | `src/api/auth.py` |
| `Text`, `Wrappers`, `Faults`, `Http` | Python's `int()`/`str()` on integers, `Option`/`Result`, uncaught exceptions, HTTP outcomes |

The schema's guarantees are collected in `Models.Valid`. They cover:

- column widths and real dates;
- each key equal to its row's id and below the table's next id;
- every contact's owner existing;
- unique usernames and emails.

Each repository operation requires `Valid` and proves it preserved. A value the database would refuse becomes `DataError` or `IntegrityError`.

Rows come back in ascending primary key. The SQL has no `ORDER BY`, so the model fixes one order.

## Model

| member | source | states |
|---|---|---|
| `Models.EmptyDb` | src/database/models.py:34-87 | The empty store meets every schema constraint: widths, foreign key, unique username and email. |
| `Models.DeleteUser` | src/database/models.py:60 | Deleting a user deletes exactly the contacts that reference it (`ondelete="CASCADE"`). Other users and contacts are unchanged and the schema still holds. |
| `Query.Page` | src/repository/contacts.py:49 | `OFFSET skip LIMIT limit`: at most `limit` rows, the rows from position `skip` on, in order. A full page when enough rows remain, and every remaining row on the last page. |
| `Query.PageAscending` | src/repository/contacts.py:49 | A page of rows in ascending primary key is in ascending key too, so no row appears twice. |
| `Calendar.AddDays` | src/repository/contacts.py:167 | `today + timedelta(days=n)` is a real date for any `n`, negative or not. |
| `Calendar.AddDaysInverse` | src/repository/contacts.py:167 | Going `n` days forward and then `n` days back returns the start date. |
| `Ilike.ContainsIsSubstring` | src/repository/contacts.py:143-147 | For a term without `%`, `_` or `\`, `column ILIKE '%term%'` holds exactly when the lower-cased term is a substring of the lower-cased column. |
| `ContactRepository.GetContacts` | src/repository/contacts.py:38-51 | At most `limit` rows, each a stored contact of the user, in ascending id and so none twice. From `skip = 0`, with a limit that covers all the user's contacts, every one of them is returned. |
| `ContactRepository.GetContactsPages` | src/repository/contacts.py:49 | Two consecutive pages are the page spanning both, so paging never skips or repeats a contact. |
| `ContactRepository.GetContactById` | src/repository/contacts.py:53-65 | `Some` exactly when the id exists and the user owns it, and then it is that row. |
| `ContactRepository.OwnershipIsolation` | src/repository/contacts.py:63 | No contact is visible to two different users. |
| `ContactRepository.CreateContact` | src/repository/contacts.py:67-81 | Succeeds exactly when the values fit their columns and the owner exists. The new contact gets a fresh id, the body's fields and the user as owner, and nothing else changes. Otherwise it fails with `DataError` or `IntegrityError`. |
| `ContactRepository.CreateThenRead` | src/repository/contacts.py:77 | After a create, the owner reads the same contact back by its id, and any other user reads `None`. |
| `ContactRepository.RemoveContact` | src/repository/contacts.py:83-97 | Returns the contact exactly when the user owns it, and then deletes that row only. Otherwise it returns `None` and the store is unchanged. |
| `ContactRepository.RemoveTwice` | src/repository/contacts.py:93-97 | A second removal of the same id returns `None` and changes nothing. |
| `ContactRepository.RemoveKeepsOthers` | src/repository/contacts.py:93-97 | A removal leaves every other contact and all users untouched. |
| `ContactRepository.UpdateContact` | src/repository/contacts.py:99-120 | On an owned contact whose patched values fit: the change is committed and the patched contact returned; each field the body sets takes its value, every unset field and the id and owner stay, and no other row changes. It fails with `DataError` exactly when the result does not fit. On a contact the user does not own: `None`, store unchanged. |
| `ContactRepository.UpdateIdempotent` | src/repository/contacts.py:112-120 | Sending the same update twice leaves the store, and returns the contact, as sending it once. |
| `ContactRepository.SearchContacts` | src/repository/contacts.py:122-154 | At most `limit` rows, each a contact of the user whose first name, last name, email, additional data or phone `ILIKE`s `%term%`, in ascending id and so none twice. A first page that fits returns all such contacts. |
| `ContactRepository.SearchIsSubstring` | src/repository/contacts.py:139-151 | For a wildcard-free term, the search is a case-insensitive substring test on the five columns; a NULL `additional_data` never matches. |
| `ContactRepository.UpcomingBirthdaysAsWritten` | src/repository/contacts.py:156-187 | Exactly the user's contacts that pass the three-part month/day filter, in ascending id and none twice, with no pagination. |
| `ContactRepository.UpcomingBirthdays` | src/repository/contacts.py:156-187 | Exactly the user's contacts whose birthday passes the corrected window, in ascending id. |
| `ContactRepository.UpcomingBirthdaysExact` | src/repository/contacts.py:156-187 | For a window under a year and a birthday other than 29 February, a contact of the user is returned exactly when its month/day falls on one of the days from `today` to `today + days`. |
| `ContactRepository.UpcomingBirthdaysAgree` | src/repository/contacts.py:169-185 | When the window ends in a later month of the same year, the query as written and the corrected query return the same list. |
| `ContactRepository.UpcomingBirthdaysCall` | src/repository/contacts.py:156-167 | Called with Python values of any type: a non-number `days` raises `TypeError` in `timedelta`, and a non-user `user` fails the relationship comparison. |
| `BirthdayWindow.InWindowIsArc` | src/repository/contacts.py:171-184 | The corrected rule is the clockwise arc on the 366-slot month/day cycle from today's slot to the last day's slot. |
| `BirthdayWindow.OffsetAlongRange` | src/repository/contacts.py:166-167 | Walking `k < 365` days from today moves `k` slots along the cycle, or `k + 1` after stepping over one missing 29 February, and never more. |
| `BirthdayWindow.RangeInWindow` | src/repository/contacts.py:166-184 | Completeness: every date from today to `today + days` passes the corrected rule. |
| `BirthdayWindow.WindowInRange` | src/repository/contacts.py:166-184 | Soundness: a birthday other than 29 February that passes the corrected rule falls on one of the days from today to `today + days`. |
| `BirthdayWindow.AgreeWithinYear` | src/repository/contacts.py:171-184 | When the window ends in a later month of the same year, the three disjuncts are exactly the corrected rule. |
| `BirthdayWindow.WholeMonthAsWritten` | src/repository/contacts.py:171-178 | On 1 March 2024 with `days = 7`, the rule as written accepts a 20 March birthday, which is outside the window. |
| `BirthdayWindow.YearWrapAsWritten` | src/repository/contacts.py:180-183 | On 31 December 2024 with `days = 32`, the rule as written rejects a 15 January birthday, which is inside the window. |
| `ContactService.UpcomingBirthdaysAsWritten` | src/services/contacts.py:110-120 | Passing `(days, user)` into the repository's `(user, days)` fails with `TypeError` for every store and every input. |
| `ContactService.UpcomingBirthdays` | src/services/contacts.py:110-120 | With the arguments in order: exactly the caller's contacts inside the window, in ascending id and none twice. |
| `ContactService.ArgumentsInOrder` | src/repository/contacts.py:156 | With `(user, days)` in declaration order, the repository call succeeds and runs the filter as written. |
| `ContactsApi.ReadContacts` | src/api/contacts.py:29-46 | 200, at most `limit` (default 100) of the caller's contacts from `skip` (default 0), in ascending id and none twice. A first page that fits holds them all. The body is the repository's page for the same `skip` and `limit`. |
| `ContactsApi.ReadContact` | src/api/contacts.py:49-70 | 200 with the contact exactly when the caller owns that id; otherwise 404 `CONTACT_NOT_FOUND`. |
| `ContactsApi.CreateContact` | src/api/contacts.py:73-86 | 201 with a contact holding the body's fields under a fresh id; the users table is untouched. A database refusal is a 500 with the store unchanged. A body that fits, from an existing user, always succeeds. |
| `ContactsApi.CreateThenGet` | src/api/contacts.py:73-86 | A created contact reads back with 200 and the same fields. |
| `ContactsApi.UpdateContact` | src/api/contacts.py:89-113 | 404 with no change when the caller owns no such contact. An owned contact whose new values fit always gets a 200 carrying the row whose required fields come from the body, whose `additional_data` comes from the body only if the client sent it, and whose id and owner are kept; only that row changes. A value the database refuses is a 500 with the store unchanged. |
| `ContactsApi.RemoveContact` | src/api/contacts.py:116-137 | 204 with an empty body when the caller owns the contact, and then that row alone is gone; otherwise 404 and no change. |
| `ContactsApi.RepeatDeleteIsNotFound` | src/api/contacts.py:130-137 | Deleting the same contact twice: the second request is a 404. |
| `ContactsApi.SearchContacts` | src/api/contacts.py:140-158 | 200, at most `limit` (default 100) of the caller's contacts, each matching the text, in ascending id and none twice. A first page that fits holds every matching contact of the caller. The body is the repository's page for the same text, `skip` and `limit`. |
| `ContactsApi.UpcomingBirthdaysAsWritten` | src/api/contacts.py:161-177 | Every request is a 500 (`TypeError`). |
| `ContactsApi.UpcomingBirthdays` | src/api/contacts.py:161-177 | 200 with exactly the caller's contacts whose birthday is in the window, in ascending id and none twice. |
| `UserRepository.GetUserById` | src/repository/users.py:34-45 | The user with that id, or `None` when there is none. |
| `UserRepository.GetUserByUsername` | src/repository/users.py:47-58 | `Some` exactly when some user has that username, and then the unique such user. |
| `UserRepository.GetUserByEmail` | src/repository/users.py:60-71 | `Some` exactly when some user has that email, and then the unique such user. |
| `UserRepository.CreateUser` | src/repository/users.py:73-94 | Succeeds exactly when the avatar fits and neither username nor email is taken. The new user has a fresh id, `hashed_password` = the body's (already hashed) password, the given avatar and `confirmed = false`. Otherwise it fails with `DataError` or `IntegrityError`. |
| `UserRepository.CreateThenFind` | src/repository/users.py:73-94 | After a registration, lookups by id, username and email each find the new user. |
| `UserRepository.DuplicateRefused` | src/database/models.py:82-83 | A second registration reusing a username or an email is refused. |
| `UserRepository.ConfirmedEmail` | src/repository/users.py:96-108 | Sets `confirmed` on the user with that email and changes nothing else. With no such user it raises `AttributeError`. |
| `UserRepository.ConfirmIdempotent` | src/repository/users.py:96-108 | Confirming twice equals confirming once. |
| `UserRepository.UpdateAvatarUrl` | src/repository/users.py:110-128 | Changes only the avatar of the user with that email and returns the updated user. `AttributeError` when there is no such user; `DataError` when the URL is wider than 255. |
| `UserService.CreateUser` | src/services/users.py:38-59 | Stores one new unconfirmed user under a fresh id with the body's username, email and password hash, and the Gravatar outcome as avatar, or none when the lookup failed. Nothing else changes. A failed lookup never blocks a registration that is otherwise possible. |
| `Jwt.Decode` | src/services/auth.py:112-114 | Succeeds exactly on a token signed with the key that has not expired, and then returns the claims it was encoded with. |
| `Jwt.DecodeEncode` | src/services/auth.py:171-175 | Decoding an encoded token yields its claims until `exp`, and `Expired` after. |
| `Jwt.WrongKeyRejected` | src/services/auth.py:112-114 | A token signed with another key never decodes. |
| `RedisService.UserKeyInjective` | src/services/redis_service.py:30-81 | Get, set and delete use `user:{id}`, and two ids share a key only if they are equal. |
| `RedisService.GetUserFromCache` | src/services/redis_service.py:30-46 | The stored user while the entry lives. `None` for a missing, expired or non-JSON entry and for an unreachable server: the error is swallowed. |
| `RedisService.CacheUserAsWritten` | src/services/redis_service.py:48-70 | Reading `user.refresh_token` raises `AttributeError` for every user, before anything is written. |
| `RedisService.CacheUser` | src/services/redis_service.py:48-70 | With the document built from existing attributes: `SETEX user:{id}` with the user's fields for 1800 seconds. An unreachable server is ignored. |
| `RedisService.InvalidateUserCache` | src/services/redis_service.py:72-81 | Deletes exactly that user's key; an unreachable server is ignored. |
| `RedisService.CacheThenGet` | src/services/redis_service.py:55-68 | A cached user reads back with the same fields for 1800 seconds after the write, and not after. |
| `RedisService.InvalidateThenGet` | src/services/redis_service.py:72-81 | After an invalidation, a get returns `None`. |
| `RedisService.OtherUsersUntouched` | src/services/redis_service.py:64-79 | Caching or invalidating one user leaves every other user's entry as it was. |
| `RedisService.LiveEarlier` | src/services/redis_service.py:64-68 | An entry live now was live, with the same value, at every earlier instant. |
| `AuthService.GetPasswordHash` | src/services/auth.py:47-56 | The hash is a bcrypt string that verifies this password and no other. |
| `AuthService.VerifyPassword` | src/services/auth.py:35-45 | A string that is not a bcrypt hash raises `ValueError`. |
| `AuthService.CreateAccessToken` | src/services/auth.py:60-81 | The token decodes, with `sub` as given and no `scope`, up to `now + expires_delta`. When `expires_delta` is `None` or 0, the limit is `now + 3600`. |
| `AuthService.CreateEmailToken` | src/services/auth.py:140-156 | The token carries `sub` = the email and `iat` = now, and decodes for exactly seven days. |
| `AuthService.GetEmailFromToken` | src/services/auth.py:158-180 | A token that decodes and carries a `sub` yields exactly that `sub`. A token that does not decode is a 422; one without `sub` raises `KeyError`, a 500. |
| `AuthService.EmailTokenRoundTrip` | src/services/auth.py:140-180 | An email token yields its email for seven days, and a 422 after. |
| `AuthService.TokenSubject` | src/services/auth.py:110-121 | 401 when the token does not decode, carries the email-verification scope, or has no `sub`; otherwise the `sub`. |
| `AuthService.TokenUserIdAsWritten` | src/services/auth.py:110-124 | As written, a `sub` that is not an integer raises `ValueError` (500) rather than 401. |
| `AuthService.TokenUserId` | src/services/auth.py:110-124 | Every rejection is the 401; the id is the `sub` read as an integer. |
| `AuthService.GetCurrentUserAsWritten` | src/services/auth.py:83-138 | As written, a cache hit is returned unchanged and is the only way to succeed; the cache is never written. |
| `AuthService.CacheMissFailsAsWritten` | src/services/auth.py:129-135 | As written, a good token for an existing but uncached user is a 500 (`AttributeError`). |
| `AuthService.GetCurrentUser` | src/services/auth.py:83-138 | A rejected token is a 401 with the cache untouched. A cache hit is returned without a store read. On a miss, the stored user is returned and cached; no stored user is a 401. |
| `AuthService.Authenticate` | src/services/auth.py:129-132 | The store-only reference: the snapshot of the user the token names, or the 401. |
| `AuthService.CacheTransparent` | src/services/auth.py:124-138 | With a coherent cache, `get_current_user` answers exactly as the store-only reference, and the cache stays coherent. |
| `AuthService.CacheNeverSwapsUsers` | src/services/auth.py:124-138 | With a sound cache, `get_current_user` admits exactly the requests the store admits, as the same user (id, username, email), and the cache stays sound. |
| `AuthService.CoherentIsSound` | src/services/auth.py:124-126 | Every coherent cache is sound. |
| `AuthService.InvariantsLater` | src/services/redis_service.py:64-68 | Coherence and soundness survive the passing of time. |
| `AuthService.ConfirmKeepsCacheSound` | src/repository/users.py:96-108 | Confirming an email keeps a sound cache sound without invalidating it. |
| `AuthService.AvatarKeepsCacheSound` | src/repository/users.py:110-128 | Changing an avatar keeps a sound cache sound without invalidating it. |
| `AuthService.CreateKeepsCacheSound` | src/repository/users.py:73-94 | A registration keeps a sound cache sound: the new id names no live entry. |
| `AuthService.ConfirmLeavesCacheStale` | src/api/auth.py:151-152 | A user cached while unconfirmed is still served unconfirmed after confirming, until the entry expires. |
| `AuthService.EmailTokenFailsAsWritten` | src/services/auth.py:124 | As written, a token without the email-verification scope whose `sub` is an email address, such as the email token `create_email_token({"sub": email})` makes, is a 500 (`ValueError`). |
| `AuthService.EmailTokenNotAccepted` | src/services/auth.py:110-124 | An email token never authenticates an API call: the answer is the 401 and the cache is untouched. |
| `AuthService.VerificationScopeRejected` | src/services/auth.py:115-116 | A token with the email-verification scope is a 401, whatever its subject. |
| `AuthApi.RegisterUser` | src/api/auth.py:22-63 | A taken email is a 409 `USER_ALREADY_EXIST`, checked before a taken username (409). Otherwise 201 with one new unconfirmed user whose stored hash verifies the password and no other, and a confirmation mail scheduled; the other users and all contacts stay as they were. A refused registration changes nothing. |
| `AuthApi.CheckLogin` | src/api/auth.py:82-94 | An unknown user or a wrong password is the same 401; a right password of an unconfirmed user is a 401 `USER_NOT_AUTHORIZED`; a stored hash bcrypt cannot read raises (500). Success exactly for a confirmed user whose password verifies. |
| `AuthApi.LoginAsWritten` | src/api/auth.py:66-96 | As written, the bearer token's `sub` is the username. |
| `AuthApi.Login` | src/api/auth.py:66-96 | The bearer token names the logged-in user's id. |
| `AuthApi.LoginThenAuthenticate` | src/api/auth.py:95-96 | The login token authenticates the user who logged in, through any sound cache, for 3600 seconds and not after. |
| `AuthApi.LoginTokenUnusableAsWritten` | src/api/auth.py:95 | As written, the login token of a user with a non-numeric username makes every authenticated request a 500. |
| `AuthApi.NumericUsernameAsWritten` | src/api/auth.py:95 | As written, a username that is another user's id logs in as that other user whenever that user's entry is in a coherent cache. As written `cache_user` never writes an entry, so this shows what repairing only the cache would expose. |
| `AuthApi.RequestEmailAsWritten` | src/api/auth.py:98-125 | As written, an unknown email is a 500 (`AttributeError`). A confirmed user gets "already confirmed" and no mail; an unconfirmed one gets a mail. |
| `AuthApi.RequestEmail` | src/api/auth.py:98-125 | Always 200: "already confirmed" exactly for a confirmed user, and a mail exactly for an unconfirmed one. |
| `AuthApi.RequestEmailAgrees` | src/api/auth.py:117-125 | For a registered email, the handler as written and the corrected one agree. |
| `AuthApi.ConfirmedEmail` | src/api/auth.py:128-152 | A bad token gives the token error. With no such user: 400 "Verification error". An already-confirmed user gets "already confirmed" with no change. Otherwise that user becomes confirmed and nothing else in the store changes. |
| `AuthApi.ConfirmTwice` | src/api/auth.py:149-152 | Following the same link again reports "already confirmed" and changes nothing. |
| `AuthApi.RegisterConfirmLogin` | src/api/auth.py:22-152 | Register, follow the mailed link within seven days, log in: the login succeeds. |

## Left out

- The contact and user services' forwarding methods (`src/services/contacts.py:34-108`, `src/services/users.py:61-115`) are not separate members. Each passes its arguments to the repository unchanged, so the routes call the repository functions directly. `UserService.confirmed_email` returns `None` despite its `bool` doc; the model's confirmation returns no value.
- `src/schemas` is not part of this model. Request bodies arrive already parsed: a birthday is a real date, and `days`, `skip` and `limit` are integers. String widths are enforced by the column types, as the database does.
- Negative `skip` or `limit` are not modelled (they are `nat`); the database rejects them.
- Row order: the statements have no `ORDER BY`; the model returns rows in ascending primary key.
- `contacts.user_id` is nullable in `src/database/models.py:60`. Every contact this code creates has an owner, so the model's `owner` is an `int`.
- `created_at` and `updated_at`: not modelled. `cache_user` serialises them; the model keeps only their attribute names (`RedisService.UserAttributes`).
- Dates: years are unbounded; Python's `date` range (1 to 9999) and its `OverflowError` are not modelled.
- `int()` is modelled for ASCII digits with an optional sign. Python also accepts surrounding whitespace, underscores and non-ASCII digits.
- `ILIKE` lower-cases ASCII letters only, not the full Unicode case mapping.
- bcrypt is idealised: the hash is the prefix, the salt and the password. It keeps the one property callers rely on, that a hash verifies its password and no other. The 72-byte truncation and the cost are not modelled. The salt is a parameter standing for randomness.
- JWT signing is idealised as a datatype carrying the claims and the signing key; HS256 itself is not modelled. Claims other than `sub`, `scope`, `iat` and `exp` are not modelled. Expiry follows python-jose: a token is valid through the second its `exp` names. Section 4.1.4 of RFC 7519 says "before".
- The clock, `date.today()`, the Gravatar lookup and the secret key are parameters. Redis expiry is an absolute instant per entry.
- Mail delivery is left out: a handler returns the `Mail` it schedules. `src/services/email.py` is not part of this model; the model assumes the mailed link holds `create_email_token({"sub": email})`.
- The contact routes receive the user id that `get_current_user` authenticated; the dependency itself is `AuthService.GetCurrentUser`.
- `get_current_user` returns an ORM `User` from the store or `User(**dict)` from the cache. Both are modelled as the `CachedUser` view: id, email, username, confirmed and avatar.
- As written, `User(**json.loads(...))` raises `TypeError` on any cached document that is not exactly a user's fields, such as one with a `refresh_token` key. Nothing in this code can write such a document, so that path is not modelled.
- The Redis connection singleton, logging and async sessions (commit, refresh) are left out.
- `ContactRepository.GetContacts`, `ContactRepository.SearchContacts`, `ContactsApi.ReadContacts` and `ContactsApi.SearchContacts` state which rows a page may hold, its bound, and the completeness of a first page that fits. Which contacts fill a later page follows the row order; `ContactRepository.GetContactsPages` states how pages fit together.
- `ContactRepository.UpcomingBirthdays`: the corrected window matches a 29 February birthday at its place between 28 February and 1 March, even in a common year. A window of 365 days or more matches every birthday; a negative window matches none.

## Findings

| source | as written | input that shows it | evidently intended | confidence | as-written member | corrected member |
|---|---|---|---|---|---|---|
| src/services/contacts.py:120 | `upcoming_birthdays(days, user)` is forwarded positionally into the repository's `upcoming_birthdays(user, days)`, so `timedelta(days=user)` raises `TypeError` | any `POST /contacts/upcoming-birthdays`, e.g. `days = 7` | pass `(user, days)` in declaration order | high; not executed | `ContactService.UpcomingBirthdaysAsWritten` | `ContactService.UpcomingBirthdays` |
| src/repository/contacts.py:171-183 | the first two disjuncts together accept the whole month when the window stays in one month, and the third (`today.month < m < future.month`) is empty across New Year | 2024-03-01 with `days = 7` accepts a 20 March birthday (`BirthdayWindow.WholeMonthAsWritten`); 2024-12-31 with `days = 32` rejects 15 January (`BirthdayWindow.YearWrapAsWritten`) | the month/day lies between today and `today + days`, wrapping over New Year | high; not executed | `ContactRepository.UpcomingBirthdaysAsWritten` | `ContactRepository.UpcomingBirthdays` |
| src/api/auth.py:95 | the access token's `sub` is the username, but `get_current_user` reads it with `int(sub)` (src/services/auth.py:124) | username `alice`: every authenticated request is a 500 (`AuthApi.LoginTokenUnusableAsWritten`); username `2` held by user 1: if an entry for user 2 were in the cache, the token would authenticate as user 2 (`AuthApi.NumericUsernameAsWritten`); as written `cache_user` never writes an entry (the `refresh_token` row), so this stays latent until that is repaired | `sub` is the user's id | high; not executed | `AuthApi.LoginAsWritten` | `AuthApi.Login` |
| src/services/redis_service.py:62 | `cache_user` reads `user.refresh_token`, which `User` (src/database/models.py:63-87) does not have; the `AttributeError` is not a Redis error and escapes | a valid token for an existing user who is not cached (`AuthService.CacheMissFailsAsWritten`) | cache the user's existing fields | high; not executed | `RedisService.CacheUserAsWritten` | `RedisService.CacheUser` |
| src/api/auth.py:119-121 | `user.confirmed` is read before the `if user:` check | `POST /auth/request_email` with an email no user has | answer as for an unconfirmed user and schedule no mail | high; not executed | `AuthApi.RequestEmailAsWritten` | `AuthApi.RequestEmail` |
| src/services/auth.py:124 | `int(user_id)` runs outside the `try`, so a `sub` that is not an integer is a 500 instead of the 401 | the login token of user `alice` (its `sub` is `alice` and it has no scope; `AuthApi.LoginTokenUnusableAsWritten`); likewise any scope-less token whose `sub` is an address (`AuthService.EmailTokenFailsAsWritten`) | reject with "Could not validate credentials" | medium; not executed | `AuthService.TokenUserIdAsWritten` | `AuthService.TokenUserId` |

=== FILE: auth_api.dfy ===
/** The `/auth` routes: registration, login, and the two email-confirmation
    endpoints. Mail is not sent here: a handler schedules it as a background
    task, and the model returns what it scheduled. */
module AuthApi {
  import opened Wrappers
  import opened Faults
  import opened Text
  import opened Models
  import opened Http
  import opened Jwt
  import opened RedisService
  import opened UserRepository
  import opened AuthService
  import UserService

  /** A scheduled `send_email(email, username, base_url)`; the mail carries
      an email token for `email`. */
  datatype Mail = Mail(email: string, username: string)

  /** The `message` bodies of the confirmation endpoints. */
  datatype Message = EmailAlreadyConfirmed | CheckYourEmail | EmailConfirmed

  /** The body of a successful login. */
  datatype TokenBody = TokenBody(accessToken: Token, tokenType: string)

  /** A registration's effect: the store, the response and the mail. */
  datatype Registration = Registration(db: Db, response: Response<User>, mail: Option<Mail>)

  /** `POST /auth/register`. A taken email is checked before a taken
      username; then the password is hashed (with `salt` standing for bcrypt's
      random salt) and the user stored with the Gravatar outcome. */
  function RegisterUser(db: Db, body: UserCreate, salt: string, gravatar: Option<string>): (r: Registration)
    requires Valid(db) && |salt| == SaltLength
    ensures Valid(r.db)
    ensures HasEmail(db, body.email) ==> r == Registration(db, Raise(HttpError(Conflict, UserAlreadyExists)), None)
    ensures !HasEmail(db, body.email) && HasUsername(db, body.username) ==>
              r == Registration(db, Raise(HttpError(Conflict, UsernameTaken)), None)
    ensures r.response.Raise? ==> r.db == db && r.mail.None?
    ensures r.response.Reply? ==>
              var u := r.response.body;
              && r.response.status == Created
              && u.username == body.username && u.email == body.email && !u.confirmed
              && u.id !in db.users && r.db.users == db.users[u.id := u]
              && r.db.contacts == db.contacts && r.db.nextContactId == db.nextContactId
              && (forall q :: VerifyPassword(q, u.hashedPassword) == Success(q == body.password))
              && r.mail == Some(Mail(body.email, body.username))
    ensures (!HasEmail(db, body.email) && !HasUsername(db, body.username)
             && (gravatar.Some? ==> |gravatar.value| <= AvatarWidth)) ==> r.response.Reply?
  {
    if GetUserByEmail(db, body.email).Some? then
      Registration(db, Raise(HttpError(Conflict, UserAlreadyExists)), None)
    else if GetUserByUsername(db, body.username).Some? then
      Registration(db, Raise(HttpError(Conflict, UsernameTaken)), None)
    else
      var hashed := body.(password := GetPasswordHash(body.password, salt));
      match UserService.CreateUser(db, hashed, gravatar)
      case Failure(f) => Registration(db, Raise(ServerError(f)), None)
      case Success((db', u)) => Registration(db', Reply(Created, u), Some(Mail(u.email, u.username)))
  }

  /** The checks of `login_user` before it issues a token: the username
      exists and the password verifies (one message for both), then the email
      is confirmed. */
  function CheckLogin(db: Db, username: string, password: string): (r: Result<User, HttpError>)
    requires Valid(db)
    ensures !HasUsername(db, username) ==> r == Failure(HttpError(Unauthorized, WrongLoginOrPassword))
    ensures r.Success? <==>
              && GetUserByUsername(db, username).Some?
              && VerifyPassword(password, GetUserByUsername(db, username).value.hashedPassword) == Success(true)
              && GetUserByUsername(db, username).value.confirmed
    ensures r.Success? ==> r.value.id in db.users && db.users[r.value.id] == r.value && r.value.username == username
    ensures HasUsername(db, username) ==>
              var u := GetUserByUsername(db, username).value;
              && (VerifyPassword(password, u.hashedPassword) == Success(false) ==>
                    r == Failure(HttpError(Unauthorized, WrongLoginOrPassword)))
              && (VerifyPassword(password, u.hashedPassword) == Success(true) && !u.confirmed ==>
                    r == Failure(HttpError(Unauthorized, UserNotAuthorized)))
              && (VerifyPassword(password, u.hashedPassword).Failure? ==>
                    r == Failure(ServerError(VerifyPassword(password, u.hashedPassword).error)))
  {
    match GetUserByUsername(db, username)
    case None => Failure(HttpError(Unauthorized, WrongLoginOrPassword))
    case Some(u) =>
      match VerifyPassword(password, u.hashedPassword)
      case Failure(f) => Failure(ServerError(f))
      case Success(ok) =>
        if !ok then Failure(HttpError(Unauthorized, WrongLoginOrPassword))
        else if !u.confirmed then Failure(HttpError(Unauthorized, UserNotAuthorized))
        else Success(u)
  }

  /** `POST /auth/login` as written: the token's `sub` is the username. */
  function LoginAsWritten(db: Db, username: string, password: string, now: int, key: string): (r: Response<TokenBody>)
    requires Valid(db)
    ensures r.Reply? <==> CheckLogin(db, username, password).Success?
    ensures r.Raise? ==> r.error == CheckLogin(db, username, password).error
    ensures r.Reply? ==> r.status == Ok && r.body == TokenBody(CreateAccessToken(username, now, key), "bearer")
  {
    match CheckLogin(db, username, password)
    case Failure(e) => Raise(e)
    case Success(u) => Reply(Ok, TokenBody(CreateAccessToken(u.username, now, key), "bearer"))
  }

  /** `POST /auth/login` issuing the token `get_current_user` expects: the
      `sub` is the user's id. */
  function Login(db: Db, username: string, password: string, now: int, key: string): (r: Response<TokenBody>)
    requires Valid(db)
    ensures r.Reply? <==> CheckLogin(db, username, password).Success?
    ensures r.Raise? ==> r.error == CheckLogin(db, username, password).error
    ensures r.Reply? ==>
              r.status == Ok && r.body.tokenType == "bearer"
              && TokenUserId(r.body.accessToken, key, now) == Success(CheckLogin(db, username, password).value.id)
  {
    match CheckLogin(db, username, password)
    case Failure(e) => Raise(e)
    case Success(u) =>
      var token := CreateAccessToken(IntToDecimal(u.id), now, key);
      ParseIntOfDecimal(u.id);
      Reply(Ok, TokenBody(token, "bearer"))
  }

  /** Login, then use the token: for the token's lifetime it authenticates
      the user who logged in, through any sound cache; after it, nothing. */
  lemma LoginThenAuthenticate(db: Db, redis: Redis, username: string, password: string, now: int, key: string, at: int)
    requires Valid(db) && CacheSound(db, redis, at)
    requires Login(db, username, password, now, key).Reply?
    ensures var token := Login(db, username, password, now, key).body.accessToken;
            var r := GetCurrentUser(db, redis, token, key, at);
            (r.user.Success? <==> at <= now + JwtExpirationSeconds)
            && (r.user.Success? ==> r.user.value.username == username)
  {
    var u := CheckLogin(db, username, password).value;
    var token := Login(db, username, password, now, key).body.accessToken;
    ParseIntOfDecimal(u.id);
    CacheNeverSwapsUsers(db, redis, token, key, at);
  }

  /** As written, the login token of a user whose username is not an
      integer makes every authenticated request fail with a 500. */
  lemma LoginTokenUnusableAsWritten(db: Db, redis: Redis, username: string, password: string, now: int, key: string, at: int)
    requires Valid(db)
    requires LoginAsWritten(db, username, password, now, key).Reply?
    requires ParseInt(username).None? && at <= now + JwtExpirationSeconds
    ensures GetCurrentUserAsWritten(db, redis, LoginAsWritten(db, username, password, now, key).body.accessToken, key, at).user
              == Failure(ServerError(ValueError))
  {
  }

  /** As written, a username that is another user's id logs in as that
      other user whenever that user's entry is in the cache. */
  lemma NumericUsernameAsWritten(db: Db, redis: Redis, username: string, password: string, now: int, key: string, at: int)
    requires Valid(db) && Coherent(db, redis, at)
    requires LoginAsWritten(db, username, password, now, key).Reply?
    requires at <= now + JwtExpirationSeconds
    requires ParseInt(username).Some? && GetUserFromCache(redis, ParseInt(username).value, at).Some?
    ensures ParseInt(username).value in db.users
    ensures var token := LoginAsWritten(db, username, password, now, key).body.accessToken;
            GetCurrentUserAsWritten(db, redis, token, key, at).user == Success(Snapshot(db.users[ParseInt(username).value]))
  {
  }

  /** `POST /auth/request_email` as written: `user.confirmed` is read before
      `user` is checked, so an unknown email raises. */
  function RequestEmailAsWritten(db: Db, email: string): (r: (Response<Message>, Option<Mail>))
    requires Valid(db)
    ensures !HasEmail(db, email) ==> r == (Raise(ServerError(AttributeError)), None)
    ensures HasEmail(db, email) ==> r.0.Reply? && r.0.status == Ok
    ensures r.1.Some? <==> HasEmail(db, email) && !GetUserByEmail(db, email).value.confirmed
    ensures r.1.Some? ==> r.1.value.email == email && r.0.body == CheckYourEmail
  {
    match GetUserByEmail(db, email)
    case None => (Raise(ServerError(AttributeError)), None)
    case Some(u) =>
      if u.confirmed then (Reply(Ok, EmailAlreadyConfirmed), None)
      else (Reply(Ok, CheckYourEmail), Some(Mail(u.email, u.username)))
  }

  /** `POST /auth/request_email` with the `None` check first: an unknown
      email gets the same answer as an unconfirmed one, and no mail. */
  function RequestEmail(db: Db, email: string): (r: (Response<Message>, Option<Mail>))
    requires Valid(db)
    ensures r.0.Reply? && r.0.status == Ok
    ensures r.0.body == EmailAlreadyConfirmed <==> HasEmail(db, email) && GetUserByEmail(db, email).value.confirmed
    ensures r.1.Some? <==> HasEmail(db, email) && !GetUserByEmail(db, email).value.confirmed
    ensures r.1.Some? ==> r.1.value.email == email
  {
    match GetUserByEmail(db, email)
    case None => (Reply(Ok, CheckYourEmail), None)
    case Some(u) =>
      if u.confirmed then (Reply(Ok, EmailAlreadyConfirmed), None)
      else (Reply(Ok, CheckYourEmail), Some(Mail(u.email, u.username)))
  }

  /** Where the as-written handler answers at all, the corrected one answers
      the same and schedules the same mail. */
  lemma RequestEmailAgrees(db: Db, email: string)
    requires Valid(db) && HasEmail(db, email)
    ensures RequestEmailAsWritten(db, email) == RequestEmail(db, email)
  {
  }

  /** `GET /auth/confirmed_email/{token}`: confirm the email the token names. */
  function ConfirmedEmail(db: Db, token: Token, key: string, now: int): (r: (Db, Response<Message>))
    requires Valid(db)
    ensures Valid(r.0)
    ensures GetEmailFromToken(token, key, now).Failure? ==> r == (db, Raise(GetEmailFromToken(token, key, now).error))
    ensures GetEmailFromToken(token, key, now).Success? ==>
              var email := GetEmailFromToken(token, key, now).value;
              && (!HasEmail(db, email) ==> r == (db, Raise(HttpError(BadRequest, VerificationError))))
              && (HasEmail(db, email) && GetUserByEmail(db, email).value.confirmed ==>
                    r == (db, Reply(Ok, EmailAlreadyConfirmed)))
              && (HasEmail(db, email) && !GetUserByEmail(db, email).value.confirmed ==>
                    var u := GetUserByEmail(db, email).value;
                    r == (db.(users := db.users[u.id := u.(confirmed := true)]), Reply(Ok, EmailConfirmed)))
  {
    match GetEmailFromToken(token, key, now)
    case Failure(e) => (db, Raise(e))
    case Success(email) =>
      match GetUserByEmail(db, email)
      case None => (db, Raise(HttpError(BadRequest, VerificationError)))
      case Some(u) =>
        if u.confirmed then (db, Reply(Ok, EmailAlreadyConfirmed))
        else
          match UserRepository.ConfirmedEmail(db, email)
          case Failure(f) => (db, Raise(ServerError(f)))
          case Success(db') =>
            assert db'.users[u.id] == u.(confirmed := true);
            (db', Reply(Ok, EmailConfirmed))
  }

  /** Following the same link twice: the second visit reports the email as
      already confirmed and changes nothing. */
  lemma ConfirmTwice(db: Db, token: Token, key: string, now: int, later: int)
    requires Valid(db) && now <= later
    requires ConfirmedEmail(db, token, key, now).1 == Reply(Ok, EmailConfirmed)
    requires Decode(token, key, later).Success?
    ensures var db' := ConfirmedEmail(db, token, key, now).0;
            ConfirmedEmail(db', token, key, later) == (db', Reply(Ok, EmailAlreadyConfirmed))
  {
  }

  /** Register, follow the mailed link within seven days, log in: the login
      succeeds. */
  lemma RegisterConfirmLogin(db: Db, body: UserCreate, salt: string, gravatar: Option<string>,
                             key: string, sent: int, clicked: int, now: int)
    requires Valid(db) && |salt| == SaltLength
    requires RegisterUser(db, body, salt, gravatar).response.Reply?
    requires clicked <= sent + EmailTokenLifetime
    ensures var db1 := RegisterUser(db, body, salt, gravatar).db;
            var link := CreateEmailToken(body.email, sent, key);
            var (db2, confirmed) := ConfirmedEmail(db1, link, key, clicked);
            confirmed == Reply(Ok, EmailConfirmed) && Login(db2, body.username, body.password, now, key).Reply?
  {
    var reg := RegisterUser(db, body, salt, gravatar);
    var u := reg.response.body;
    var db1 := reg.db;
    assert db1.users[u.id] == u;
    assert GetUserByEmail(db1, body.email) == Some(u) by {
      assert HasEmail(db1, body.email);
    }
    var link := CreateEmailToken(body.email, sent, key);
    EmailTokenRoundTrip(body.email, sent, key, clicked);
    var db2 := ConfirmedEmail(db1, link, key, clicked).0;
    assert db2.users[u.id] == u.(confirmed := true);
    assert GetUserByUsername(db2, body.username) == Some(u.(confirmed := true)) by {
      assert HasUsername(db2, body.username);
    }
  }
}

=== FILE: auth_service.dfy ===
/** The authentication service: password hashing, access and email tokens,
    and the `get_current_user` dependency with its cache-aside read of the
    user. */
module AuthService {
  import opened Wrappers
  import opened Faults
  import opened Text
  import opened Models
  import opened Http
  import opened Jwt
  import opened RedisService
  import opened UserRepository

  /** `JWT_EXPIRATION_SECONDS`: lifetime of an access token. */
  const JwtExpirationSeconds := 3600

  /** Lifetime of an email token: seven days. */
  const EmailTokenLifetime := 7 * 24 * 60 * 60

  /** The `scope` claim that marks a token as one for email verification. */
  const EmailVerificationScope := "email_verification"

  /** bcrypt's identifier and cost as passlib writes them: `$2b$12$`. */
  const BcryptPrefix := "$2b$12$"
  const SaltLength := 22

  /** A hash passlib recognises as bcrypt. */
  predicate WellFormedHash(h: string) {
    |h| >= |BcryptPrefix| + SaltLength && h[..|BcryptPrefix|] == BcryptPrefix
  }

  /** `Hash.get_password_hash`. The hash is idealised as the prefix, the
      salt and then the password itself: it keeps what bcrypt guarantees the
      caller, that the hash verifies this password and no other. */
  function GetPasswordHash(password: string, salt: string): (h: string)
    requires |salt| == SaltLength
    ensures WellFormedHash(h)
    ensures forall q :: VerifyPassword(q, h) == Success(q == password)
  {
    var h := BcryptPrefix + salt + password;
    assert h[|BcryptPrefix| + SaltLength..] == password;
    h
  }

  /** `Hash.verify_password`. passlib raises `ValueError` on a string that is
      not a hash it knows. */
  function VerifyPassword(plain: string, hashed: string): (r: Result<bool, Fault>)
    ensures r.Failure? <==> !WellFormedHash(hashed)
    ensures r.Failure? ==> r.error == ValueError
  {
    if !WellFormedHash(hashed) then Failure(ValueError)
    else Success(hashed[|BcryptPrefix| + SaltLength..] == plain)
  }

  /** Seconds an access token lives: `expires_delta` when it is given and
      not zero (Python's truthiness), the configured default otherwise. */
  function AccessTokenLifetime(expiresDelta: Option<int>): int {
    if expiresDelta.Some? && expiresDelta.value != 0 then expiresDelta.value else JwtExpirationSeconds
  }

  /** `create_access_token({"sub": sub}, expires_delta)` at second `now`. */
  function CreateAccessToken(sub: string, now: int, key: string, expiresDelta: Option<int> := None): (t: Token)
    ensures forall at :: Decode(t, key, at).Success? <==> at <= now + AccessTokenLifetime(expiresDelta)
    ensures forall at :: Decode(t, key, at).Success? ==>
              Decode(t, key, at).value.sub == Some(sub) && Decode(t, key, at).value.scope == None
  {
    Encode(Claims(Some(sub), None, None, Some(now + AccessTokenLifetime(expiresDelta))), key)
  }

  /** `create_email_token({"sub": email})` at second `now`. */
  function CreateEmailToken(email: string, now: int, key: string): (t: Token)
    ensures forall at :: Decode(t, key, at).Success? <==> at <= now + EmailTokenLifetime
    ensures forall at :: Decode(t, key, at).Success? ==>
              Decode(t, key, at).value.sub == Some(email) && Decode(t, key, at).value.iat == Some(now)
  {
    Encode(Claims(Some(email), None, Some(now), Some(now + EmailTokenLifetime)), key)
  }

  /** `get_email_from_token`: the `sub` of a valid token. A token that does
      not decode is a 422; a valid token without `sub` raises `KeyError`,
      which the handler does not catch. */
  function GetEmailFromToken(token: Token, key: string, now: int): (r: Result<string, HttpError>)
    ensures Decode(token, key, now).Failure? ==> r == Failure(HttpError(UnprocessableEntity, InvalidEmailToken))
    ensures Decode(token, key, now).Success? && Decode(token, key, now).value.sub.None? ==> r == Failure(ServerError(KeyError))
    ensures r.Success? ==> Decode(token, key, now).Success? && Decode(token, key, now).value.sub == Some(r.value)
    ensures Decode(token, key, now).Success? && Decode(token, key, now).value.sub.Some? ==>
              r == Success(Decode(token, key, now).value.sub.value)
  {
    match Decode(token, key, now)
    case Failure(_) => Failure(HttpError(UnprocessableEntity, InvalidEmailToken))
    case Success(c) =>
      match c.sub
      case None => Failure(ServerError(KeyError))
      case Some(email) => Success(email)
  }

  /** An email token yields its email for seven days, and a 422 after. */
  lemma EmailTokenRoundTrip(email: string, issued: int, key: string, at: int)
    ensures GetEmailFromToken(CreateEmailToken(email, issued, key), key, at) ==
              if at <= issued + EmailTokenLifetime then Success(email)
              else Failure(HttpError(UnprocessableEntity, InvalidEmailToken))
  {
  }

  function CredentialsError(): HttpError {
    HttpError(Unauthorized, CouldNotValidateCredentials)
  }

  /** The checks `get_current_user` makes of a token before it looks for
      the user: it decodes, it is not an email-verification token, it has a
      `sub`. */
  function TokenSubject(token: Token, key: string, now: int): (r: Result<string, HttpError>)
    ensures r.Failure? ==> r.error == CredentialsError()
    ensures r.Success? <==>
              && Decode(token, key, now).Success?
              && Decode(token, key, now).value.scope != Some(EmailVerificationScope)
              && Decode(token, key, now).value.sub.Some?
    ensures r.Success? ==> Decode(token, key, now).value.sub == Some(r.value)
  {
    match Decode(token, key, now)
    case Failure(_) => Failure(CredentialsError())
    case Success(c) =>
      if c.scope == Some(EmailVerificationScope) then Failure(CredentialsError())
      else if c.sub.None? then Failure(CredentialsError())
      else Success(c.sub.value)
  }

  /** The user id a token names, as written: `int(sub)` outside the `try`,
      so a `sub` that is not an integer raises `ValueError`. */
  function TokenUserIdAsWritten(token: Token, key: string, now: int): (r: Result<int, HttpError>)
    ensures TokenSubject(token, key, now).Failure? ==> r == Failure(CredentialsError())
    ensures TokenSubject(token, key, now).Success? ==>
              r == match ParseInt(TokenSubject(token, key, now).value)
                   case None => Failure(ServerError(ValueError))
                   case Some(id) => Success(id)
  {
    match TokenSubject(token, key, now)
    case Failure(e) => Failure(e)
    case Success(sub) =>
      match ParseInt(sub)
      case None => Failure(ServerError(ValueError))
      case Some(id) => Success(id)
  }

  /** The user id a token names: a `sub` that is not an integer is a token
      this service did not issue, and gets the same 401 as any other. */
  function TokenUserId(token: Token, key: string, now: int): (r: Result<int, HttpError>)
    ensures r.Failure? ==> r.error == CredentialsError()
    ensures r.Success? <==> TokenSubject(token, key, now).Success? && ParseInt(TokenSubject(token, key, now).value).Some?
    ensures r.Success? ==> Some(r.value) == ParseInt(TokenSubject(token, key, now).value)
  {
    match TokenSubject(token, key, now)
    case Failure(e) => Failure(e)
    case Success(sub) =>
      match ParseInt(sub)
      case None => Failure(CredentialsError())
      case Some(id) => Success(id)
  }

  /** What `get_current_user` leaves behind: the cache, and the user or the
      error. */
  datatype Authenticated = Authenticated(redis: Redis, user: Result<CachedUser, HttpError>)

  /** `get_current_user` as written: `int(sub)` can raise, and on a cache
      miss `cache_user` raises before it writes anything. */
  function GetCurrentUserAsWritten(db: Db, redis: Redis, token: Token, key: string, now: int): (r: Authenticated)
    requires Valid(db)
    ensures r.redis == redis
    ensures TokenUserIdAsWritten(token, key, now).Failure? ==> r.user == Failure(TokenUserIdAsWritten(token, key, now).error)
    ensures r.user.Success? ==>
              TokenUserIdAsWritten(token, key, now).Success?
              && GetUserFromCache(redis, TokenUserIdAsWritten(token, key, now).value, now) == Some(r.user.value)
    ensures TokenUserIdAsWritten(token, key, now).Success? &&
            GetUserFromCache(redis, TokenUserIdAsWritten(token, key, now).value, now).Some? ==>
              r.user == Success(GetUserFromCache(redis, TokenUserIdAsWritten(token, key, now).value, now).value)
  {
    match TokenUserIdAsWritten(token, key, now)
    case Failure(e) => Authenticated(redis, Failure(e))
    case Success(id) =>
      match GetUserFromCache(redis, id, now)
      case Some(cu) => Authenticated(redis, Success(cu))
      case None =>
        match GetUserById(db, id)
        case None => Authenticated(redis, Failure(CredentialsError()))
        case Some(u) =>
          match CacheUserAsWritten(redis, u, now)
          case Failure(f) => Authenticated(redis, Failure(ServerError(f)))
          case Success(redis') => Authenticated(redis', Success(Snapshot(u)))
  }

  /** As written, a request whose user is not cached fails with a 500 even
      when the token is good and the user exists. */
  lemma CacheMissFailsAsWritten(db: Db, redis: Redis, token: Token, key: string, now: int)
    requires Valid(db)
    requires TokenUserIdAsWritten(token, key, now).Success?
    requires GetUserFromCache(redis, TokenUserIdAsWritten(token, key, now).value, now).None?
    requires TokenUserIdAsWritten(token, key, now).value in db.users
    ensures GetCurrentUserAsWritten(db, redis, token, key, now).user == Failure(ServerError(AttributeError))
  {
  }

  /** `get_current_user`: the cached user if the cache holds one, else the
      user row, which is then cached. */
  function GetCurrentUser(db: Db, redis: Redis, token: Token, key: string, now: int): (r: Authenticated)
    requires Valid(db)
    ensures TokenUserId(token, key, now).Failure? ==> r == Authenticated(redis, Failure(CredentialsError()))
    ensures r.user.Failure? ==> r.user.error == CredentialsError() && r.redis == redis
    ensures r.user.Success? ==>
              var id := TokenUserId(token, key, now).value;
              && TokenUserId(token, key, now).Success?
              && (GetUserFromCache(redis, id, now).Some? ==> r.user.value == GetUserFromCache(redis, id, now).value && r.redis == redis)
              && (GetUserFromCache(redis, id, now).None? ==>
                    id in db.users && r.user.value == Snapshot(db.users[id]) && r.redis == CacheUser(redis, db.users[id], now))
    ensures TokenUserId(token, key, now).Success? ==>
              var id := TokenUserId(token, key, now).value;
              (r.user.Success? <==> GetUserFromCache(redis, id, now).Some? || id in db.users)
  {
    match TokenUserId(token, key, now)
    case Failure(e) => Authenticated(redis, Failure(e))
    case Success(id) =>
      match GetUserFromCache(redis, id, now)
      case Some(cu) => Authenticated(redis, Success(cu))
      case None =>
        match GetUserById(db, id)
        case None => Authenticated(redis, Failure(CredentialsError()))
        case Some(u) => Authenticated(CacheUser(redis, u, now), Success(Snapshot(u)))
  }

  /** The user a token names, read from the store alone: the reference
      `get_current_user` must agree with. */
  function Authenticate(db: Db, token: Token, key: string, now: int): (r: Result<CachedUser, HttpError>)
    requires Valid(db)
    ensures r.Success? <==> TokenUserId(token, key, now).Success? && TokenUserId(token, key, now).value in db.users
    ensures r.Success? ==> r.value == Snapshot(db.users[TokenUserId(token, key, now).value])
    ensures r.Failure? ==> r.error == CredentialsError()
  {
    match TokenUserId(token, key, now)
    case Failure(e) => Failure(e)
    case Success(id) =>
      match GetUserById(db, id)
      case None => Failure(CredentialsError())
      case Some(u) => Success(Snapshot(u))
  }

  /** Every live cache entry is the current snapshot of its user. */
  ghost predicate Coherent(db: Db, redis: Redis, now: int) {
    forall id :: GetUserFromCache(redis, id, now).Some? ==>
      id in db.users && GetUserFromCache(redis, id, now).value == Snapshot(db.users[id])
  }

  /** The cached fields that never change once a user exists. */
  predicate SameIdentity(c: CachedUser, u: User) {
    c.id == u.id && c.username == u.username && c.email == u.email
  }

  /** Every live cache entry names an existing user and carries that user's
      id, username and email; `confirmed` and `avatar` may be stale. */
  ghost predicate CacheSound(db: Db, redis: Redis, now: int) {
    forall id :: GetUserFromCache(redis, id, now).Some? ==>
      id in db.users && SameIdentity(GetUserFromCache(redis, id, now).value, db.users[id])
  }

  /** With a coherent cache, `get_current_user` answers exactly as a read of
      the store would, and leaves the cache coherent. */
  lemma CacheTransparent(db: Db, redis: Redis, token: Token, key: string, now: int)
    requires Valid(db) && Coherent(db, redis, now)
    ensures GetCurrentUser(db, redis, token, key, now).user == Authenticate(db, token, key, now)
    ensures Coherent(db, GetCurrentUser(db, redis, token, key, now).redis, now)
  {
    var r := GetCurrentUser(db, redis, token, key, now);
    if TokenUserId(token, key, now).Success? {
      var id := TokenUserId(token, key, now).value;
      if GetUserFromCache(redis, id, now).None? && id in db.users {
        var u := db.users[id];
        forall j | GetUserFromCache(r.redis, j, now).Some?
          ensures j in db.users && GetUserFromCache(r.redis, j, now).value == Snapshot(db.users[j])
        {
          if j != u.id {
            OtherUsersUntouched(redis, u, j, now, now);
          } else {
            CacheThenGet(redis, u, now, now);
          }
        }
      }
    }
  }

  /** With a sound cache, `get_current_user` admits exactly the requests the
      store admits, as the same user (possibly with a stale `confirmed` or
      `avatar`), and leaves the cache sound. */
  lemma CacheNeverSwapsUsers(db: Db, redis: Redis, token: Token, key: string, now: int)
    requires Valid(db) && CacheSound(db, redis, now)
    ensures var r := GetCurrentUser(db, redis, token, key, now);
            var a := Authenticate(db, token, key, now);
            && (r.user.Success? <==> a.Success?)
            && (r.user.Success? ==> SameIdentity(r.user.value, db.users[a.value.id]))
    ensures CacheSound(db, GetCurrentUser(db, redis, token, key, now).redis, now)
  {
    var r := GetCurrentUser(db, redis, token, key, now);
    if TokenUserId(token, key, now).Success? {
      var id := TokenUserId(token, key, now).value;
      if GetUserFromCache(redis, id, now).None? && id in db.users {
        var u := db.users[id];
        forall j | GetUserFromCache(r.redis, j, now).Some?
          ensures j in db.users && SameIdentity(GetUserFromCache(r.redis, j, now).value, db.users[j])
        {
          if j != u.id {
            OtherUsersUntouched(redis, u, j, now, now);
          } else {
            CacheThenGet(redis, u, now, now);
          }
        }
      }
    }
  }

  /** A coherent cache is sound. */
  lemma CoherentIsSound(db: Db, redis: Redis, now: int)
    requires Coherent(db, redis, now)
    ensures CacheSound(db, redis, now)
  {
  }

  /** Time only removes entries, so both invariants survive its passing. */
  lemma InvariantsLater(db: Db, redis: Redis, now: int, later: int)
    requires now <= later
    ensures Coherent(db, redis, now) ==> Coherent(db, redis, later)
    ensures CacheSound(db, redis, now) ==> CacheSound(db, redis, later)
  {
    forall id | GetUserFromCache(redis, id, later).Some?
      ensures GetUserFromCache(redis, id, now) == GetUserFromCache(redis, id, later)
    {
      LiveEarlier(redis, id, now, later);
    }
  }

  /** An email token never authenticates an API call: its `sub` is an email
      address, which is not an integer. */
  lemma EmailTokenNotAccepted(db: Db, redis: Redis, email: string, k: nat, issued: int, key: string, now: int)
    requires Valid(db)
    requires k < |email| && email[k] == '@'
    ensures GetCurrentUser(db, redis, CreateEmailToken(email, issued, key), key, now) ==
              Authenticated(redis, Failure(CredentialsError()))
  {
    ParseIntRejects(email, k);
  }

  /** As written, a token without the email-verification scope whose `sub`
      is an email address is a 500: `int()` of the address raises outside
      the `try`. `create_email_token` as called here adds no scope, so such
      a token is the email token of this model. */
  lemma EmailTokenFailsAsWritten(db: Db, redis: Redis, email: string, k: nat, issued: int, key: string, now: int)
    requires Valid(db)
    requires k < |email| && email[k] == '@' && now <= issued + EmailTokenLifetime
    ensures GetCurrentUserAsWritten(db, redis, CreateEmailToken(email, issued, key), key, now).user ==
              Failure(ServerError(ValueError))
  {
    ParseIntRejects(email, k);
  }

  /** A token that carries the email-verification scope never authenticates,
      whatever its subject. */
  lemma VerificationScopeRejected(db: Db, redis: Redis, c: Claims, key: string, now: int)
    requires Valid(db)
    requires c.scope == Some(EmailVerificationScope)
    ensures GetCurrentUser(db, redis, Encode(c, key), key, now) == Authenticated(redis, Failure(CredentialsError()))
  {
  }

  /** Confirming an email keeps the cache sound without invalidating it. */
  lemma ConfirmKeepsCacheSound(db: Db, redis: Redis, now: int, email: string)
    requires Valid(db) && CacheSound(db, redis, now)
    ensures ConfirmedEmail(db, email).Success? ==> CacheSound(ConfirmedEmail(db, email).value, redis, now)
  {
    var c := ConfirmedEmail(db, email);
    if c.Success? {
      forall k | k in db.users
        ensures KeepsIdentity(db, c.value, k)
      {
        assert c.value.users[k] == (if db.users[k].email == email then db.users[k].(confirmed := true) else db.users[k]);
      }
      SoundWhileIdentitiesKept(db, c.value, redis, now);
    }
  }

  /** Changing an avatar keeps the cache sound without invalidating it. */
  lemma AvatarKeepsCacheSound(db: Db, redis: Redis, now: int, email: string, url: string)
    requires Valid(db) && CacheSound(db, redis, now)
    ensures UpdateAvatarUrl(db, email, url).Success? ==> CacheSound(UpdateAvatarUrl(db, email, url).value.0, redis, now)
  {
    var a := UpdateAvatarUrl(db, email, url);
    if a.Success? {
      var (db', u) := a.value;
      forall k | k in db.users
        ensures KeepsIdentity(db, db', k)
      {
        assert db'.users == db.users[u.id := u];
      }
      SoundWhileIdentitiesKept(db, db', redis, now);
    }
  }

  /** A registration keeps the cache sound: the new id was never cached
      against another user. */
  lemma CreateKeepsCacheSound(db: Db, redis: Redis, now: int, body: UserCreate, avatar: Option<string>)
    requires Valid(db) && CacheSound(db, redis, now)
    ensures UserRepository.CreateUser(db, body, avatar).Success? ==>
              CacheSound(UserRepository.CreateUser(db, body, avatar).value.0, redis, now)
  {
    var n := UserRepository.CreateUser(db, body, avatar);
    if n.Success? {
      var (db', u) := n.value;
      forall k | k in db.users
        ensures KeepsIdentity(db, db', k)
      {
        assert u.id !in db.users && db'.users == db.users[u.id := u];
      }
      SoundWhileIdentitiesKept(db, db', redis, now);
    }
  }

    /** User `k` is still present in `db'` with the same id, username and email. */
  predicate KeepsIdentity(db: Db, db': Db, k: int)
    requires k in db.users
  {
    && k in db'.users
    && db'.users[k].id == db.users[k].id
    && db'.users[k].username == db.users[k].username
    && db'.users[k].email == db.users[k].email
  }

  /** A store change that keeps every user with the same id, username and
      email keeps a sound cache sound. */
  lemma SoundWhileIdentitiesKept(db: Db, db': Db, redis: Redis, now: int)
    requires CacheSound(db, redis, now)
    requires forall k :: k in db.users ==> KeepsIdentity(db, db', k)
    ensures CacheSound(db', redis, now)
  {
    forall id | GetUserFromCache(redis, id, now).Some?
      ensures id in db'.users && SameIdentity(GetUserFromCache(redis, id, now).value, db'.users[id])
    {
      assert id in db.users;
      assert KeepsIdentity(db, db', id);
    }
  }

  /** Confirming an email does not reach the cache: a user cached while
      unconfirmed is still served unconfirmed until the entry expires. */
  lemma ConfirmLeavesCacheStale(db: Db, redis: Redis, token: Token, key: string, now: int, email: string)
    requires Valid(db) && Coherent(db, redis, now)
    requires TokenUserId(token, key, now).Success?
    requires GetUserFromCache(redis, TokenUserId(token, key, now).value, now).Some?
    requires db.users[TokenUserId(token, key, now).value].email == email
    requires !db.users[TokenUserId(token, key, now).value].confirmed
    ensures ConfirmedEmail(db, email).Success?
    ensures var db' := ConfirmedEmail(db, email).value;
            var r := GetCurrentUser(db', redis, token, key, now);
            && db'.users[TokenUserId(token, key, now).value].confirmed
            && r.user.Success? && !r.user.value.confirmed
  {
    var id := TokenUserId(token, key, now).value;
    assert db.users[id].email == email;
  }
}

=== FILE: birthday_window.dfy ===
/** Which birthdays fall in "the next `days` days": the month/day rule of
    `upcoming_birthdays`, as written and corrected. A birthday is compared by
    month and day only; the year it carries is the year of birth. */
module BirthdayWindow {
  import opened Calendar

  /** The filter of `upcoming_birthdays` as written: the birthday is in
      today's month on or after today's day, or in the month of the last day
      on or before that day, or in a month strictly between the two. */
  predicate RuleAsWritten(b: Date, today: Date, future: Date) {
    || (b.month == today.month && b.day >= today.day)
    || (b.month == future.month && b.day <= future.day)
    || (b.month > today.month && b.month < future.month)
  }

  /** The corrected rule: the month/day of `b` lies on the stretch of the
      calendar from today to `today + days`, wrapping over New Year. A window
      of 365 days or more holds every month/day; a negative one holds none. */
  predicate InBirthdayWindow(b: Date, today: Date, days: int)
    requires ValidDate(today)
  {
    if days < 0 then false
    else if days >= 365 then true
    else
      var future := AddDays(today, days);
      if MonthDayLe(today, future) then MonthDayLe(today, b) && MonthDayLe(b, future)
      else MonthDayLe(today, b) || MonthDayLe(b, future)
  }

  /** How far position `to` lies ahead of position `from` on the 366-slot
      month/day cycle. */
  function Arc(from: int, to: int): (r: int)
    requires 0 <= from < 366 && 0 <= to < 366
    ensures 0 <= r < 366
    ensures r == 0 <==> from == to
  {
    if to >= from then to - from else to - from + 366
  }

  /** How far the month/day of `d` lies ahead of that of `t`. */
  function Offset(t: Date, d: Date): int
    requires ValidDate(t) && ValidDate(d)
  {
    Arc(MonthDayIndex(t), MonthDayIndex(d))
  }

  /** Slot 59 is 29 February, the slot a common year steps over. */
  const LeapDaySlot := 59

  /** The step from 28 February of a common year jumps over 29 February. */
  predicate SkipsLeapDay(d: Date) {
    d.month == 2 && d.day == 28 && !IsLeapYear(d.year)
  }

  predicate SameMonthDay(a: Date, b: Date) {
    a.month == b.month && a.day == b.day
  }

  /** Two dates share a slot exactly when they share month and day. */
  lemma IndexInjective(a: Date, b: Date)
    requires ValidDate(a) && ValidDate(b)
    ensures MonthDayIndex(a) == MonthDayIndex(b) <==> SameMonthDay(a, b)
  {
    MonthDayOrder(a, b);
    MonthDayOrder(b, a);
  }

  /** One day forward is one slot forward, two across a missing 29 February,
      and from 31 December back to slot 0. */
  lemma IndexStep(d: Date)
    requires ValidDate(d)
    ensures SkipsLeapDay(d) ==> MonthDayIndex(d) == LeapDaySlot - 1 && MonthDayIndex(NextDay(d)) == LeapDaySlot + 1
    ensures !SkipsLeapDay(d) ==> MonthDayIndex(NextDay(d)) == (MonthDayIndex(d) + 1) % 366
  {
  }

  /** The offset from `t` grows by the size of each step, as long as it does
      not come round to `t` again. */
  lemma OffsetStep(t: Date, d: Date)
    requires ValidDate(t) && ValidDate(d)
    requires Offset(t, d) + (if SkipsLeapDay(d) then 2 else 1) < 366
    ensures Offset(t, NextDay(d)) == Offset(t, d) + (if SkipsLeapDay(d) then 2 else 1)
    ensures SkipsLeapDay(d) ==> Arc(MonthDayIndex(t), LeapDaySlot) == Offset(t, d) + 1
  {
    IndexStep(d);
  }

  lemma AddOneDay(d: Date, k: nat)
    requires ValidDate(d)
    ensures AddDays(d, k + 1) == NextDay(AddDays(d, k))
  {
    AddDaysForward(d, k, 1);
  }

  /** Walking `k < 365` days from `t` advances `k` slots, or `k + 1` once the
      walk has stepped over a missing 29 February; it steps over at most one. */
  lemma {:induction false} OffsetAlongRange(t: Date, k: nat)
    requires ValidDate(t) && k <= 364
    ensures k <= Offset(t, AddDays(t, k)) <= k + 1
    ensures Offset(t, AddDays(t, k)) == k + 1 ==> Arc(MonthDayIndex(t), LeapDaySlot) <= k
    decreases k
  {
    if k > 0 {
      OffsetAlongRange(t, k - 1);
      var d := AddDays(t, k - 1);
      AddOneDay(t, k - 1);
      IndexStep(d);
      if SkipsLeapDay(d) {
        OffsetStep(t, d);
      } else {
        OffsetStep(t, d);
      }
    }
  }

  /** For `0 <= days < 365` the corrected rule says: the birthday's slot is no
      further ahead of today's than the last day's slot. */
  lemma InWindowIsArc(b: Date, t: Date, days: int)
    requires ValidDate(b) && ValidDate(t) && 0 <= days < 365
    ensures InBirthdayWindow(b, t, days) <==> Offset(t, b) <= Offset(t, AddDays(t, days))
  {
    var f := AddDays(t, days);
    MonthDayOrder(t, f);
    MonthDayOrder(t, b);
    MonthDayOrder(b, f);
  }

  /** Completeness: every day from today to `today + days` is a birthday the
      corrected rule lets through. */
  lemma RangeInWindow(t: Date, days: int, k: nat)
    requires ValidDate(t) && 0 <= k <= days
    ensures InBirthdayWindow(AddDays(t, k), t, days)
  {
    if days < 365 {
      OffsetAlongRange(t, k);
      OffsetAlongRange(t, days);
      InWindowIsArc(AddDays(t, k), t, days);
    }
  }

  /** A slot within the offset reached after `n` days is the slot of one of
      those days, unless it is the 29 February a common year stepped over. */
  lemma {:induction false} OffsetHit(t: Date, b: Date, n: nat)
    requires ValidDate(t) && ValidDate(b) && n <= 364
    requires MonthDayIndex(b) != LeapDaySlot
    requires Offset(t, b) <= Offset(t, AddDays(t, n))
    ensures exists k :: 0 <= k <= n && MonthDayIndex(AddDays(t, k)) == MonthDayIndex(b)
    decreases n
  {
    if n == 0 {
      assert MonthDayIndex(AddDays(t, 0)) == MonthDayIndex(b);
    } else {
      var d := AddDays(t, n - 1);
      OffsetAlongRange(t, n - 1);
      if Offset(t, b) <= Offset(t, d) {
        OffsetHit(t, b, n - 1);
        var k :| 0 <= k <= n - 1 && MonthDayIndex(AddDays(t, k)) == MonthDayIndex(b);
        assert 0 <= k <= n;
      } else {
        AddOneDay(t, n - 1);
        OffsetAlongRange(t, n);
        IndexStep(d);
        OffsetStep(t, d);
        assert Offset(t, b) == Offset(t, AddDays(t, n));
        assert MonthDayIndex(AddDays(t, n)) == MonthDayIndex(b);
      }
    }
  }

  /** Soundness: a birthday the corrected rule lets through falls on one of
      the days from today to `today + days` (for a window shorter than a year,
      and a birthday other than 29 February). */
  lemma WindowInRange(b: Date, t: Date, days: int)
    requires ValidDate(b) && ValidDate(t) && 0 <= days < 365
    requires !(b.month == 2 && b.day == 29)
    requires InBirthdayWindow(b, t, days)
    ensures exists k :: 0 <= k <= days && SameMonthDay(AddDays(t, k), b)
  {
    InWindowIsArc(b, t, days);
    OffsetHit(t, b, days);
    var k :| 0 <= k <= days && MonthDayIndex(AddDays(t, k)) == MonthDayIndex(b);
    IndexInjective(AddDays(t, k), b);
  }

  /** Where the last day is in a later month of the same year, the rule as
      written is the corrected one. */
  lemma AgreeWithinYear(b: Date, t: Date, days: int)
    requires ValidDate(t) && 0 <= days < 365
    requires t.month < AddDays(t, days).month
    ensures RuleAsWritten(b, t, AddDays(t, days)) <==> InBirthdayWindow(b, t, days)
  {
  }

  /** A window inside one month takes the whole month: on 1 March 2024 with a
      7-day window the rule as written accepts a 20 March birthday. */
  lemma WholeMonthAsWritten(t: Date, b: Date)
    requires t == Date(2024, 3, 1) && b == Date(1990, 3, 20)
    ensures RuleAsWritten(b, t, AddDays(t, 7)) && !InBirthdayWindow(b, t, 7)
  {
    AddDaysWithinMonth(t, 7);
  }

  /** A window across New Year that ends past January misses January: on 31
      December 2024 with a 32-day window (to 1 February 2025) the rule as
      written rejects a 15 January birthday. */
  lemma YearWrapAsWritten(t: Date, b: Date)
    requires t == Date(2024, 12, 31) && b == Date(1990, 1, 15)
    ensures !RuleAsWritten(b, t, AddDays(t, 32)) && InBirthdayWindow(b, t, 32)
  {
    var jan1 := NextDay(t);
    assert jan1 == Date(2025, 1, 1);
    var jan31 := AddDays(jan1, 30);
    assert jan31 == Date(2025, 1, 31) by {
      AddDaysWithinMonth(jan1, 30);
    }
    var feb1 := AddDays(t, 32);
    assert feb1 == NextDay(jan31) by {
      AddDaysForward(t, 1, 31);
      AddOneDay(jan1, 30);
    }
    assert feb1 == Date(2025, 2, 1);
    assert !MonthDayLe(t, feb1) && MonthDayLe(b, feb1);
  }
}

=== FILE: calendar.dfy ===
/** Proleptic Gregorian dates as Python's `datetime.date` has them, with the
    day arithmetic of `date + timedelta(days=n)`. The model leaves the year
    unbounded. */
module Calendar {

  datatype Date = Date(year: int, month: int, day: int)

  predicate IsLeapYear(y: int) {
    y % 4 == 0 && (y % 100 != 0 || y % 400 == 0)
  }

  function DaysInMonth(y: int, m: int): int
    requires 1 <= m <= 12
  {
    if m == 2 then (if IsLeapYear(y) then 29 else 28)
    else if m == 4 || m == 6 || m == 9 || m == 11 then 30
    else 31
  }

  predicate ValidDate(d: Date) {
    1 <= d.month <= 12 && 1 <= d.day <= DaysInMonth(d.year, d.month)
  }

  /** The day after `d`, rolling over month and year ends. */
  function NextDay(d: Date): (r: Date)
    requires ValidDate(d)
    ensures ValidDate(r)
    ensures PrevDay(r) == d
  {
    if d.day < DaysInMonth(d.year, d.month) then Date(d.year, d.month, d.day + 1)
    else if d.month < 12 then Date(d.year, d.month + 1, 1)
    else Date(d.year + 1, 1, 1)
  }

  /** The day before `d`. */
  function PrevDay(d: Date): (r: Date)
    requires ValidDate(d)
    ensures ValidDate(r)
  {
    if d.day > 1 then Date(d.year, d.month, d.day - 1)
    else if d.month > 1 then Date(d.year, d.month - 1, DaysInMonth(d.year, d.month - 1))
    else Date(d.year - 1, 12, 31)
  }

  lemma NextOfPrev(d: Date)
    requires ValidDate(d)
    ensures NextDay(PrevDay(d)) == d
  {
  }

  /** `d + timedelta(days=n)`: `n` steps forward, or `-n` steps back. */
  function AddDays(d: Date, n: int): (r: Date)
    requires ValidDate(d)
    ensures ValidDate(r)
    decreases if n < 0 then -n else n
  {
    if n == 0 then d
    else if n > 0 then AddDays(NextDay(d), n - 1)
    else AddDays(PrevDay(d), n + 1)
  }

  lemma {:induction false} AddDaysForward(d: Date, a: nat, b: nat)
    requires ValidDate(d)
    ensures AddDays(d, a + b) == AddDays(AddDays(d, a), b)
    decreases a
  {
    if a > 0 {
      AddDaysForward(NextDay(d), a - 1, b);
    }
  }

  lemma {:induction false} AddDaysBackward(d: Date, a: nat, b: nat)
    requires ValidDate(d)
    ensures AddDays(d, -(a + b) as int) == AddDays(AddDays(d, -(a as int)), -(b as int))
    decreases a
  {
    if a > 0 {
      AddDaysBackward(PrevDay(d), a - 1, b);
    }
  }

  /** Going `n` days forward and then `n` days back returns to the start, in
      either direction. */
  lemma {:induction false} AddDaysInverse(d: Date, n: int)
    requires ValidDate(d)
    ensures AddDays(AddDays(d, n), -n) == d
    decreases if n < 0 then -n else n
  {
    if n > 0 {
      var e := AddDays(d, n);
      AddDaysInverse(NextDay(d), n - 1);
      AddDaysBackward(e, n - 1, 1);
    } else if n < 0 {
      var e := AddDays(d, n);
      AddDaysInverse(PrevDay(d), n + 1);
      AddDaysForward(e, -n - 1, 1);
      NextOfPrev(d);
    }
  }

  /** Adding days within a month only moves the day of the month. */
  lemma {:induction false} AddDaysWithinMonth(d: Date, k: nat)
    requires ValidDate(d) && d.day + k <= DaysInMonth(d.year, d.month)
    ensures AddDays(d, k) == Date(d.year, d.month, d.day + k)
    decreases k
  {
    if k > 0 {
      AddDaysWithinMonth(NextDay(d), k - 1);
    }
  }

  /** Month/day order, the year ignored: what comparing `extract("month", …)`
      and then `extract("day", …)` expresses. */
  predicate MonthDayLe(a: Date, b: Date) {
    a.month < b.month || (a.month == b.month && a.day <= b.day)
  }

  /** Days of a leap year before the first of month `m` (`m == 13` gives the
      year length). */
  function DaysBeforeMonth(m: int): int
    requires 1 <= m <= 13
  {
    [0, 31, 60, 91, 121, 152, 182, 213, 244, 274, 305, 335, 366][m - 1]
  }

  /** The position of a date's month/day on the 366-day month/day cycle that
      starts at 1 January and includes 29 February. */
  function MonthDayIndex(d: Date): (r: int)
    requires ValidDate(d)
    ensures 0 <= r < 366
  {
    MonthSpan(d.year, d.month);
    DaysBeforeMonth(d.month) + d.day - 1
  }

  lemma MonthSpan(y: int, m: int)
    requires 1 <= m <= 12
    ensures DaysBeforeMonth(m) + DaysInMonth(y, m) <= DaysBeforeMonth(m + 1)
    ensures forall k :: m < k <= 13 ==> DaysBeforeMonth(m + 1) <= DaysBeforeMonth(k)
  {
  }

  /** Month/day order is the order of positions on the cycle. */
  lemma MonthDayOrder(a: Date, b: Date)
    requires ValidDate(a) && ValidDate(b)
    ensures MonthDayLe(a, b) <==> MonthDayIndex(a) <= MonthDayIndex(b)
  {
    MonthSpan(a.year, a.month);
    MonthSpan(b.year, b.month);
  }
}

=== FILE: contact_repository.dfy ===
/** `ContactRepository`: the queries and writes on the `contacts` table. Every
    one of them is filtered by the owning user. */
module ContactRepository {
  import opened Wrappers
  import opened Calendar
  import opened Models
  import opened Query
  import opened Ilike
  import opened Faults
  import opened BirthdayWindow

  /** The fields of a create request (`ContactBase`). A missing
      `additional_data` is stored as NULL. */
  datatype ContactBody = ContactBody(
    firstName: string,
    lastName: string,
    email: string,
    phoneNumber: string,
    birthday: Date,
    additionalData: Option<string>)

  /** The fields an update request sets; `None` is a field the request leaves
      unset. `additionalData := Some(None)` sets the column to NULL. */
  datatype ContactPatch = ContactPatch(
    firstName: Option<string>,
    lastName: Option<string>,
    email: Option<string>,
    phoneNumber: Option<string>,
    birthday: Option<Date>,
    additionalData: Option<Option<string>>)

  function IdOf(c: Contact): int {
    c.id
  }

  /** The `contacts` table, row by row. */
  function ContactRows(db: Db): seq<Contact> {
    TableRows(db.contacts, db.nextContactId)
  }

  /** `select(Contact).filter(keep)`. */
  function Select(db: Db, keep: Contact -> bool): seq<Contact> {
    Filter(ContactRows(db), keep)
  }

  lemma SelectFacts(db: Db, keep: Contact -> bool)
    requires Valid(db)
    ensures forall c :: c in Select(db, keep) <==> c in db.contacts.Values && keep(c)
    ensures AscendingBy(Select(db, keep), IdOf)
  {
    TableRowsMembers(db.contacts, db.nextContactId);
    TableRowsAscending(db.contacts, db.nextContactId, IdOf);
    FilterAscending(ContactRows(db), keep, IdOf);
    var rows := ContactRows(db);
    forall c | c in db.contacts.Values && keep(c)
      ensures c in Select(db, keep)
    {
      var k :| k in db.contacts && db.contacts[k] == c;
      assert c in rows;
      var i :| 0 <= i < |rows| && rows[i] == c;
    }
  }

  /** A query whose filter admits only one user's rows returns no more rows
      than that user owns. */
  lemma SelectOwnedCount(db: Db, keep: Contact -> bool, user: int)
    requires Valid(db)
    requires forall c :: keep(c) ==> c.owner == user
    ensures |Select(db, keep)| <= |OwnedBy(db, user)|
  {
    SelectFacts(db, keep);
    var rows := Select(db, keep);
    forall i | 0 <= i < |rows|
      ensures IdOf(rows[i]) in OwnedBy(db, user)
    {
      assert rows[i] in rows;
    }
    AscendingCount(rows, IdOf, OwnedBy(db, user));
  }

  /** The user's contacts, before pagination. */
  function UserContacts(db: Db, user: int): seq<Contact> {
    Select(db, (c: Contact) => c.owner == user)
  }

  /** `get_contacts`: one page of the user's contacts. */
  function GetContacts(db: Db, skip: nat, limit: nat, user: int): (r: seq<Contact>)
    requires Valid(db)
    ensures |r| <= limit
    ensures forall i :: 0 <= i < |r| ==> r[i] in db.contacts.Values && r[i].owner == user
    ensures skip == 0 && |OwnedBy(db, user)| <= limit ==>
              forall k :: k in OwnedBy(db, user) ==> db.contacts[k] in r
    ensures AscendingBy(r, IdOf)
  {
    var rows := UserContacts(db, user);
    SelectFacts(db, (c: Contact) => c.owner == user);
    SelectOwnedCount(db, (c: Contact) => c.owner == user, user);
    PageAscending(rows, skip, limit, IdOf);
    var r := Page(rows, skip, limit);
    assert forall i :: 0 <= i < |r| ==> r[i] in rows;
    assert skip == 0 && |OwnedBy(db, user)| <= limit ==> r == rows;
    r
  }

  /** Paging through the user's contacts: two consecutive pages are the
      page that spans both, so walking pages never skips or repeats a row. */
  lemma GetContactsPages(db: Db, skip: nat, a: nat, b: nat, user: int)
    requires Valid(db)
    ensures GetContacts(db, skip, a, user) + GetContacts(db, skip + a, b, user) == GetContacts(db, skip, a + b, user)
  {
    PagesConcatenate(UserContacts(db, user), skip, a, b);
  }

  /** The filter of `get_contact_by_id`. */
  function ById(id: int, user: int): Contact -> bool {
    (c: Contact) => c.id == id && c.owner == user
  }

  /** The query by id returns the one owned row with that id, or nothing. */
  lemma {:induction false} SelectById(db: Db, id: int, user: int)
    requires Valid(db)
    ensures |Select(db, ById(id, user))| <= 1
    ensures |Select(db, ById(id, user))| == 1 <==> id in db.contacts && db.contacts[id].owner == user
    ensures |Select(db, ById(id, user))| == 1 ==> Select(db, ById(id, user))[0] == db.contacts[id]
  {
    var rows := Select(db, ById(id, user));
    SelectFacts(db, ById(id, user));
    forall i | 0 <= i < |rows|
      ensures IdOf(rows[i]) == id
    {
      assert rows[i] in rows;
    }
    AtMostOne(rows, IdOf, id);
    if id in db.contacts && db.contacts[id].owner == user {
      assert db.contacts[id] in db.contacts.Values;
      assert db.contacts[id] in rows;
    }
    if |rows| == 1 {
      assert rows[0] in rows;
      assert rows[0] in db.contacts.Values;
      var k :| k in db.contacts && db.contacts[k] == rows[0];
      assert k == id;
    }
  }

  /** `get_contact_by_id`: the contact with that id, if the user owns it. */
  function GetContactById(db: Db, id: int, user: int): (r: Option<Contact>)
    requires Valid(db)
    ensures r.Some? <==> id in db.contacts && db.contacts[id].owner == user
    ensures r.Some? ==> r.value == db.contacts[id]
  {
    SelectById(db, id, user);
    OneOrNone(Select(db, ById(id, user)))
  }

  /** Two different users never see the same contact. */
  lemma OwnershipIsolation(db: Db, id: int, a: int, b: int)
    requires Valid(db) && a != b
    ensures GetContactById(db, id, a).None? || GetContactById(db, id, b).None?
  {
  }

  /** The row a create request inserts, before the database assigns nothing
      else: the body's fields, the next id and the owner. */
  function NewContact(db: Db, body: ContactBody, user: int): Contact {
    Contact(db.nextContactId, body.firstName, body.lastName, body.email, body.phoneNumber,
            body.birthday, body.additionalData, user)
  }

  /** `create_contact`: insert the body as a new contact of the user. The
      database refuses a value wider than its column, and a `user_id` that
      names no user. */
  function CreateContact(db: Db, body: ContactBody, user: int): (r: Result<(Db, Contact), Fault>)
    requires Valid(db) && ValidDate(body.birthday)
    ensures r.Success? <==> FitsContactColumns(NewContact(db, body, user)) && user in db.users
    ensures r.Failure? ==> r.error == (if FitsContactColumns(NewContact(db, body, user)) then IntegrityError else DataError)
    ensures r.Success? ==>
              var (db', c) := r.value;
              && Valid(db')
              && c.id !in db.contacts
              && c.owner == user
              && c.firstName == body.firstName && c.lastName == body.lastName
              && c.email == body.email && c.phoneNumber == body.phoneNumber
              && c.birthday == body.birthday && c.additionalData == body.additionalData
              && db'.contacts == db.contacts[c.id := c]
              && db'.users == db.users && db'.nextUserId == db.nextUserId
  {
    var c := NewContact(db, body, user);
    if !FitsContactColumns(c) then Failure(DataError)
    else if user !in db.users then Failure(IntegrityError)
    else Success((db.(contacts := db.contacts[c.id := c], nextContactId := c.id + 1), c))
  }

  /** Create, then read by the new id: the same contact comes back, to its
      owner and to nobody else. */
  lemma CreateThenRead(db: Db, body: ContactBody, user: int, other: int)
    requires Valid(db) && ValidDate(body.birthday)
    requires CreateContact(db, body, user).Success?
    requires other != user
    ensures var (db', c) := CreateContact(db, body, user).value;
            GetContactById(db', c.id, user) == Some(c) && GetContactById(db', c.id, other) == None
  {
  }

  /** `remove_contact`: delete the contact if the user owns it and return it. */
  function RemoveContact(db: Db, id: int, user: int): (r: (Db, Option<Contact>))
    requires Valid(db)
    ensures Valid(r.0)
    ensures r.1.Some? <==> id in db.contacts && db.contacts[id].owner == user
    ensures r.1.Some? ==> r.1.value == db.contacts[id] && r.0 == db.(contacts := db.contacts - {id})
    ensures r.1.None? ==> r.0 == db
  {
    var found := GetContactById(db, id, user);
    if found.Some? then (db.(contacts := db.contacts - {id}), found) else (db, None)
  }

  /** Removing twice: the second call finds nothing and changes nothing. */
  lemma RemoveTwice(db: Db, id: int, user: int)
    requires Valid(db)
    ensures var (db', _) := RemoveContact(db, id, user);
            RemoveContact(db', id, user) == (db', None)
  {
  }

  /** A removal touches no other contact and no user. */
  lemma RemoveKeepsOthers(db: Db, id: int, user: int)
    requires Valid(db)
    ensures var (db', _) := RemoveContact(db, id, user);
            && db'.users == db.users
            && forall k :: k in db.contacts && k != id ==> k in db'.contacts && db'.contacts[k] == db.contacts[k]
  {
  }

  /** `setattr` for each field the request set. */
  function ApplyPatch(c: Contact, p: ContactPatch): Contact {
    c.(firstName := if p.firstName.Some? then p.firstName.value else c.firstName,
       lastName := if p.lastName.Some? then p.lastName.value else c.lastName,
       email := if p.email.Some? then p.email.value else c.email,
       phoneNumber := if p.phoneNumber.Some? then p.phoneNumber.value else c.phoneNumber,
       birthday := if p.birthday.Some? then p.birthday.value else c.birthday,
       additionalData := if p.additionalData.Some? then p.additionalData.value else c.additionalData)
  }

  /** The partial-update relation: every field the patch sets takes its
      value, every other field keeps the old one, and id and owner stay. */
  predicate PatchedFrom(prev: Contact, p: ContactPatch, next: Contact) {
    && next.id == prev.id && next.owner == prev.owner
    && next.firstName == (if p.firstName.Some? then p.firstName.value else prev.firstName)
    && next.lastName == (if p.lastName.Some? then p.lastName.value else prev.lastName)
    && next.email == (if p.email.Some? then p.email.value else prev.email)
    && next.phoneNumber == (if p.phoneNumber.Some? then p.phoneNumber.value else prev.phoneNumber)
    && next.birthday == (if p.birthday.Some? then p.birthday.value else prev.birthday)
    && next.additionalData == (if p.additionalData.Some? then p.additionalData.value else prev.additionalData)
  }

  /** `update_contact`: apply the patch to the user's contact and return it;
      `None`, with no change, when the user owns no such contact. */
  function UpdateContact(db: Db, id: int, p: ContactPatch, user: int): (r: Result<(Db, Option<Contact>), Fault>)
    requires Valid(db)
    requires p.birthday.Some? ==> ValidDate(p.birthday.value)
    ensures !(id in db.contacts && db.contacts[id].owner == user) ==> r == Success((db, None))
    ensures r.Success? && r.value.1.Some? ==>
              var (db', c) := (r.value.0, r.value.1.value);
              && id in db.contacts
              && PatchedFrom(db.contacts[id], p, c)
              && db' == db.(contacts := db.contacts[id := c])
              && Valid(db')
    ensures id in db.contacts && db.contacts[id].owner == user ==>
              (r.Success? <==> FitsContactColumns(ApplyPatch(db.contacts[id], p)))
    ensures id in db.contacts && db.contacts[id].owner == user && FitsContactColumns(ApplyPatch(db.contacts[id], p)) ==>
              r == Success((db.(contacts := db.contacts[id := ApplyPatch(db.contacts[id], p)]), Some(ApplyPatch(db.contacts[id], p))))
    ensures r.Failure? ==> r.error == DataError
  {
    match GetContactById(db, id, user)
    case None => Success((db, None))
    case Some(c) =>
      var c' := ApplyPatch(c, p);
      if FitsContactColumns(c') then
        ReplaceKeepsValid(db, c');
        assert PatchedFrom(c, p, c');
        Success((db.(contacts := db.contacts[id := c']), Some(c')))
      else Failure(DataError)
  }

  /** Rewriting a row in place, under its own id and owner, with values that
      fit keeps every schema constraint. */
  lemma ReplaceKeepsValid(db: Db, c: Contact)
    requires Valid(db) && c.id in db.contacts
    requires c.owner == db.contacts[c.id].owner && FitsContactColumns(c)
    ensures Valid(db.(contacts := db.contacts[c.id := c]))
  {
  }

  /** Applying a patch to its own result changes nothing. */
  lemma ApplyPatchIdempotent(c: Contact, p: ContactPatch)
    ensures ApplyPatch(ApplyPatch(c, p), p) == ApplyPatch(c, p)
  {
  }

  /** Sending the same update twice leaves the store as sending it once, and
      returns the same contact. */
  lemma UpdateIdempotent(db: Db, id: int, p: ContactPatch, user: int)
    requires Valid(db)
    requires p.birthday.Some? ==> ValidDate(p.birthday.value)
    requires UpdateContact(db, id, p, user).Success?
    ensures var (db', c) := UpdateContact(db, id, p, user).value;
            UpdateContact(db', id, p, user) == Success((db', c))
  {
    var (db', c) := UpdateContact(db, id, p, user).value;
    if c.Some? {
      ApplyPatchIdempotent(db.contacts[id], p);
      assert db'.contacts[id := c.value] == db'.contacts;
    }
  }

  /** The five columns the search looks in, each as `column ILIKE '%term%'`;
      a NULL `additional_data` matches nothing. */
  predicate MatchesSearch(c: Contact, term: string) {
    var pattern := Contains(term);
    || ILike(c.firstName, pattern)
    || ILike(c.lastName, pattern)
    || ILike(c.email, pattern)
    || (c.additionalData.Some? && ILike(c.additionalData.value, pattern))
    || ILike(c.phoneNumber, pattern)
  }

  /** `search_contacts`: one page of the user's contacts that match the term. */
  function SearchContacts(db: Db, term: string, skip: nat, limit: nat, user: int): (r: seq<Contact>)
    requires Valid(db)
    ensures |r| <= limit
    ensures forall i :: 0 <= i < |r| ==> r[i] in db.contacts.Values && r[i].owner == user && MatchesSearch(r[i], term)
    ensures skip == 0 && |OwnedBy(db, user)| <= limit ==>
              forall k :: k in OwnedBy(db, user) && MatchesSearch(db.contacts[k], term) ==> db.contacts[k] in r
    ensures AscendingBy(r, IdOf)
  {
    var keep := (c: Contact) => c.owner == user && MatchesSearch(c, term);
    var rows := Select(db, keep);
    SelectFacts(db, keep);
    SelectOwnedCount(db, keep, user);
    PageAscending(rows, skip, limit, IdOf);
    var r := Page(rows, skip, limit);
    assert forall i :: 0 <= i < |r| ==> r[i] in rows;
    assert skip == 0 && |OwnedBy(db, user)| <= limit ==> r == rows;
    r
  }

  /** For a term without `%`, `_` or a backslash the search is what it is
      meant to be: a case-insensitive substring test on the five columns. */
  lemma SearchIsSubstring(c: Contact, term: string)
    requires NoWildcards(term)
    ensures MatchesSearch(c, term) <==>
      var t := Text.LowerStr(term);
      || IsSubstring(t, Text.LowerStr(c.firstName))
      || IsSubstring(t, Text.LowerStr(c.lastName))
      || IsSubstring(t, Text.LowerStr(c.email))
      || (c.additionalData.Some? && IsSubstring(t, Text.LowerStr(c.additionalData.value)))
      || IsSubstring(t, Text.LowerStr(c.phoneNumber))
  {
    ContainsIsSubstring(term, c.firstName);
    ContainsIsSubstring(term, c.lastName);
    ContainsIsSubstring(term, c.email);
    if c.additionalData.Some? {
      ContainsIsSubstring(term, c.additionalData.value);
    }
    ContainsIsSubstring(term, c.phoneNumber);
  }

  /** `upcoming_birthdays` as written: every contact of the user whose
      birthday passes the three-part month/day filter, all of them, with no
      pagination. `today` stands for `date.today()`. */
  function UpcomingBirthdaysAsWritten(db: Db, today: Date, user: int, days: int := 7): (r: seq<Contact>)
    requires Valid(db) && ValidDate(today)
    ensures forall c :: c in r <==>
              c in db.contacts.Values && c.owner == user && RuleAsWritten(c.birthday, today, AddDays(today, days))
    ensures AscendingBy(r, IdOf)
  {
    var future := AddDays(today, days);
    var keep := (c: Contact) => c.owner == user && RuleAsWritten(c.birthday, today, future);
    SelectFacts(db, keep);
    Select(db, keep)
  }

  /** `upcoming_birthdays` with the corrected window. */
  function UpcomingBirthdays(db: Db, today: Date, user: int, days: int := 7): (r: seq<Contact>)
    requires Valid(db) && ValidDate(today)
    ensures forall c :: c in r <==>
              c in db.contacts.Values && c.owner == user && InBirthdayWindow(c.birthday, today, days)
    ensures AscendingBy(r, IdOf)
  {
    var keep := (c: Contact) => c.owner == user && InBirthdayWindow(c.birthday, today, days);
    SelectFacts(db, keep);
    Select(db, keep)
  }

  /** The birthday query returns exactly the user's contacts whose birthday
      falls on one of the days from today to `today + days` (for a window
      shorter than a year, and birthdays other than 29 February). */
  lemma UpcomingBirthdaysExact(db: Db, today: Date, user: int, days: int, c: Contact)
    requires Valid(db) && ValidDate(today) && 0 <= days < 365
    requires c in db.contacts.Values && c.owner == user
    requires !(c.birthday.month == 2 && c.birthday.day == 29)
    ensures c in UpcomingBirthdays(db, today, user, days) <==>
              exists k :: 0 <= k <= days && SameMonthDay(AddDays(today, k), c.birthday)
  {
    if c in UpcomingBirthdays(db, today, user, days) {
      WindowInRange(c.birthday, today, days);
    }
    if exists k :: 0 <= k <= days && SameMonthDay(AddDays(today, k), c.birthday) {
      var k :| 0 <= k <= days && SameMonthDay(AddDays(today, k), c.birthday);
      RangeInWindow(today, days, k);
      InWindowIsArc(AddDays(today, k), today, days);
      InWindowIsArc(c.birthday, today, days);
      IndexInjective(AddDays(today, k), c.birthday);
    }
  }

  /** Where the window ends in a later month of the same year, the query as
      written returns what the corrected one does. */
  lemma UpcomingBirthdaysAgree(db: Db, today: Date, user: int, days: int)
    requires Valid(db) && ValidDate(today) && 0 <= days < 365
    requires today.month < AddDays(today, days).month
    ensures UpcomingBirthdaysAsWritten(db, today, user, days) == UpcomingBirthdays(db, today, user, days)
  {
    var future := AddDays(today, days);
    var p := (c: Contact) => c.owner == user && RuleAsWritten(c.birthday, today, future);
    var q := (c: Contact) => c.owner == user && InBirthdayWindow(c.birthday, today, days);
    forall c: Contact
      ensures p(c) == q(c)
    {
      AgreeWithinYear(c.birthday, today, days);
    }
    FilterCongruent(ContactRows(db), p, q);
  }

  /** A Python argument, with only the types the birthday call passes. */
  datatype PyArg = PyInt(n: int) | PyUser(id: int)

  /** The repository's `upcoming_birthdays(user, days)`, as written, called
      with arguments of any type:
      `timedelta(days=...)` refuses anything but a number, and the filter
      `Contact.user == user` refuses anything but a user. */
  function UpcomingBirthdaysCall(db: Db, today: Date, user: PyArg, days: PyArg): (r: Result<seq<Contact>, Fault>)
    requires Valid(db) && ValidDate(today)
    ensures !days.PyInt? ==> r == Failure(TypeError)
    ensures days.PyInt? && !user.PyUser? ==> r == Failure(ArgumentError)
    ensures days.PyInt? && user.PyUser? ==> r == Success(UpcomingBirthdaysAsWritten(db, today, user.id, days.n))
  {
    match days
    case PyUser(_) => Failure(TypeError)
    case PyInt(n) =>
      match user
      case PyInt(_) => Failure(ArgumentError)
      case PyUser(id) => Success(UpcomingBirthdaysAsWritten(db, today, id, n))
  }
}

=== FILE: contact_service.dfy ===
/** `ContactService`: the layer between the contact routes and the
    repository. Every method but one forwards its arguments unchanged; the
    birthday method passes them in the wrong order. */
module ContactService {
  import opened Wrappers
  import opened Faults
  import opened Calendar
  import opened Models
  import opened BirthdayWindow
  import opened Query
  import opened ContactRepository

  /** `upcoming_birthdays(days, user)` as written: it calls the repository's
      `upcoming_birthdays(user, days)` positionally as `(days, user)`, so the
      repository receives the user as the day count and fails on
      `timedelta(days=user)`, whatever the store holds. */
  function UpcomingBirthdaysAsWritten(db: Db, today: Date, days: int, user: int): (r: Result<seq<Contact>, Fault>)
    requires Valid(db) && ValidDate(today)
    ensures r == Failure(TypeError)
  {
    UpcomingBirthdaysCall(db, today, PyInt(days), PyUser(user))
  }

  /** `upcoming_birthdays(days, user)` with the arguments in the order the
      repository declares them, over the corrected window. */
  function UpcomingBirthdays(db: Db, today: Date, days: int, user: int): (r: seq<Contact>)
    requires Valid(db) && ValidDate(today)
    ensures forall c :: c in r <==>
              c in db.contacts.Values && c.owner == user && InBirthdayWindow(c.birthday, today, days)
    ensures AscendingBy(r, IdOf)
  {
    ContactRepository.UpcomingBirthdays(db, today, user, days)
  }

  /** With the arguments in order, the repository call succeeds and the
      as-written filter is the one that runs. */
  lemma ArgumentsInOrder(db: Db, today: Date, days: int, user: int)
    requires Valid(db) && ValidDate(today)
    ensures UpcomingBirthdaysCall(db, today, PyUser(user), PyInt(days)) ==
              Success(ContactRepository.UpcomingBirthdaysAsWritten(db, today, user, days))
  {
  }
}

=== FILE: contacts_api.dfy ===
/** The `/contacts` routes. Each handler receives the id of the user the
    `get_current_user` dependency authenticated, and turns the repository's
    `None` into a 404 and an uncaught exception into a 500. */
module ContactsApi {
  import opened Wrappers
  import opened Faults
  import opened Calendar
  import opened Models
  import opened Query
  import opened Http
  import opened BirthdayWindow
  import opened ContactRepository
  import ContactService

  /** `GET /contacts/`: one page of the caller's contacts. */
  function ReadContacts(db: Db, user: int, skip: nat := 0, limit: nat := 100): (r: Response<seq<Contact>>)
    requires Valid(db)
    ensures r.Reply? && r.status == Ok
    ensures |r.body| <= limit
    ensures forall i :: 0 <= i < |r.body| ==> r.body[i] in db.contacts.Values && r.body[i].owner == user
    ensures skip == 0 && |OwnedBy(db, user)| <= limit ==>
              forall k :: k in OwnedBy(db, user) ==> db.contacts[k] in r.body
    ensures AscendingBy(r.body, IdOf)
    ensures r.body == ContactRepository.GetContacts(db, skip, limit, user)
  {
    Reply(Ok, GetContacts(db, skip, limit, user))
  }

  /** `GET /contacts/{id}`: the contact, or 404 when the caller owns none
      with that id. */
  function ReadContact(db: Db, id: int, user: int): (r: Response<Contact>)
    requires Valid(db)
    ensures r.Reply? <==> id in db.contacts && db.contacts[id].owner == user
    ensures r.Reply? ==> r.status == Ok && r.body == db.contacts[id]
    ensures r.Raise? ==> r.error == HttpError(NotFound, ContactNotFound)
  {
    match GetContactById(db, id, user)
    case None => Raise(HttpError(NotFound, ContactNotFound))
    case Some(c) => Reply(Ok, c)
  }

  /** `POST /contacts/`: 201 with the stored contact; a value the database
      refuses is an uncaught exception. */
  function CreateContact(db: Db, body: ContactBody, user: int): (r: (Db, Response<Contact>))
    requires Valid(db) && ValidDate(body.birthday)
    ensures Valid(r.0)
    ensures r.1.Reply? ==>
              && r.1.status == Created
              && r.1.body.id !in db.contacts
              && r.0.contacts == db.contacts[r.1.body.id := r.1.body]
              && r.0.users == db.users && r.0.nextUserId == db.nextUserId
              && r.1.body.owner == user
              && r.1.body.firstName == body.firstName && r.1.body.lastName == body.lastName
              && r.1.body.email == body.email && r.1.body.phoneNumber == body.phoneNumber
              && r.1.body.birthday == body.birthday && r.1.body.additionalData == body.additionalData
    ensures r.1.Raise? ==> r.0 == db && r.1.error.status == InternalServerError
    ensures user in db.users && FitsContactColumns(NewContact(db, body, user)) ==> r.1.Reply?
  {
    match ContactRepository.CreateContact(db, body, user)
    case Failure(f) => (db, Raise(ServerError(f)))
    case Success((db', c)) => (db', Reply(Created, c))
  }

  /** Create, then read back: the read returns the contact the create
      returned, field for field. */
  lemma CreateThenGet(db: Db, body: ContactBody, user: int)
    requires Valid(db) && ValidDate(body.birthday)
    requires CreateContact(db, body, user).1.Reply?
    ensures var (db', created) := CreateContact(db, body, user);
            ReadContact(db', created.body.id, user) == Reply(Ok, created.body)
  {
  }

  /** The update a `PUT` body amounts to: `model_dump(exclude_unset=True)`
      carries every required field, and `additional_data` only when the
      client sent it. */
  function PatchOf(body: ContactBody, sentAdditionalData: bool): ContactPatch {
    ContactPatch(Some(body.firstName), Some(body.lastName), Some(body.email), Some(body.phoneNumber),
                 Some(body.birthday), if sentAdditionalData then Some(body.additionalData) else None)
  }

  /** `PUT /contacts/{id}`: 200 with the updated contact, 404 when the caller
      owns none with that id. */
  function UpdateContact(db: Db, id: int, body: ContactBody, sentAdditionalData: bool, user: int): (r: (Db, Response<Contact>))
    requires Valid(db) && ValidDate(body.birthday)
    ensures Valid(r.0)
    ensures !(id in db.contacts && db.contacts[id].owner == user) ==>
              r == (db, Raise(HttpError(NotFound, ContactNotFound)))
    ensures r.1.Reply? ==>
              && r.1.status == Ok
              && id in db.contacts
              && r.1.body == db.contacts[id].(firstName := body.firstName, lastName := body.lastName,
                                              email := body.email, phoneNumber := body.phoneNumber,
                                              birthday := body.birthday,
                                              additionalData := if sentAdditionalData then body.additionalData
                                                                else db.contacts[id].additionalData)
              && r.0 == db.(contacts := db.contacts[id := r.1.body])
    ensures r.1.Raise? && r.1.error.status != NotFound ==> r.0 == db && r.1.error == ServerError(DataError)
    ensures id in db.contacts && db.contacts[id].owner == user &&
            FitsContactColumns(ApplyPatch(db.contacts[id], PatchOf(body, sentAdditionalData))) ==>
              r.1 == Reply(Ok, ApplyPatch(db.contacts[id], PatchOf(body, sentAdditionalData)))
  {
    match ContactRepository.UpdateContact(db, id, PatchOf(body, sentAdditionalData), user)
    case Failure(f) => (db, Raise(ServerError(f)))
    case Success((db', None)) => (db', Raise(HttpError(NotFound, ContactNotFound)))
    case Success((db', Some(c))) => (db', Reply(Ok, c))
  }

  /** `DELETE /contacts/{id}`: 204 with an empty body, 404 when the caller
      owns none with that id. */
  function RemoveContact(db: Db, id: int, user: int): (r: (Db, Response<Empty>))
    requires Valid(db)
    ensures Valid(r.0)
    ensures r.1 == (if id in db.contacts && db.contacts[id].owner == user
                    then Reply(NoContent, Empty) else Raise(HttpError(NotFound, ContactNotFound)))
    ensures r.1.Reply? ==> r.0 == db.(contacts := db.contacts - {id})
    ensures r.1.Raise? ==> r.0 == db
  {
    var (db', removed) := ContactRepository.RemoveContact(db, id, user);
    if removed.None? then (db', Raise(HttpError(NotFound, ContactNotFound)))
    else (db', Reply(NoContent, Empty))
  }

  /** Deleting the same contact twice: the second request is a 404. */
  lemma RepeatDeleteIsNotFound(db: Db, id: int, user: int)
    requires Valid(db)
    requires RemoveContact(db, id, user).1.Reply?
    ensures RemoveContact(RemoveContact(db, id, user).0, id, user).1 == Raise(HttpError(NotFound, ContactNotFound))
  {
  }

  /** `GET /contacts/search/`: one page of the caller's contacts that match
      the text. */
  function SearchContacts(db: Db, text: string, user: int, skip: nat := 0, limit: nat := 100): (r: Response<seq<Contact>>)
    requires Valid(db)
    ensures r.Reply? && r.status == Ok && |r.body| <= limit
    ensures forall i :: 0 <= i < |r.body| ==>
              r.body[i] in db.contacts.Values && r.body[i].owner == user && MatchesSearch(r.body[i], text)
    ensures skip == 0 && |OwnedBy(db, user)| <= limit ==>
              forall k :: k in OwnedBy(db, user) && MatchesSearch(db.contacts[k], text) ==> db.contacts[k] in r.body
    ensures AscendingBy(r.body, IdOf)
    ensures r.body == ContactRepository.SearchContacts(db, text, skip, limit, user)
  {
    Reply(Ok, ContactRepository.SearchContacts(db, text, skip, limit, user))
  }

  /** `POST /contacts/upcoming-birthdays` as written: the service's swapped
      call raises, so every request ends in a 500. */
  function UpcomingBirthdaysAsWritten(db: Db, today: Date, days: int, user: int): (r: Response<seq<Contact>>)
    requires Valid(db) && ValidDate(today)
    ensures r == Raise(ServerError(TypeError))
  {
    match ContactService.UpcomingBirthdaysAsWritten(db, today, days, user)
    case Failure(f) => Raise(ServerError(f))
    case Success(cs) => Reply(Ok, cs)
  }

  /** `POST /contacts/upcoming-birthdays` with the service and the window
      corrected: the caller's contacts whose birthday falls in the window. */
  function UpcomingBirthdays(db: Db, today: Date, days: int, user: int): (r: Response<seq<Contact>>)
    requires Valid(db) && ValidDate(today)
    ensures r.Reply? && r.status == Ok
    ensures forall c :: c in r.body <==>
              c in db.contacts.Values && c.owner == user && InBirthdayWindow(c.birthday, today, days)
    ensures AscendingBy(r.body, IdOf)
  {
    Reply(Ok, ContactService.UpcomingBirthdays(db, today, days, user))
  }
}

=== FILE: faults.dfy ===
/** The exceptions the modelled code can raise and does not catch. Each one
    reaches the web framework as an HTTP 500 response. */
module Faults {

  datatype Fault =
    | TypeError          // an argument of the wrong Python type
    | ArgumentError      // a relationship compared with something that is not a mapped object
    | AttributeError     // reading an attribute the object does not have
    | ValueError         // `int(s)` on a string that is not an integer literal
    | KeyError           // `payload["sub"]` on a payload without that claim
    | DataError          // the database refused a value longer than its column
    | IntegrityError     // the database refused a duplicate or a dangling reference
}

=== FILE: http.dfy ===
/** The HTTP outcomes the handlers produce: a status with a body, or a status
    with the `detail` of the `HTTPException` the code raises. */
module Http {
  import opened Faults

  const Ok := 200
  const Created := 201
  const NoContent := 204
  const BadRequest := 400
  const Unauthorized := 401
  const NotFound := 404
  const Conflict := 409
  const UnprocessableEntity := 422
  const InternalServerError := 500

  /** The `detail` of each error the core raises, named by meaning. */
  datatype Detail =
    | ContactNotFound                 // messages.CONTACT_NOT_FOUND
    | UserAlreadyExists               // API_ERROR_USER_ALREADY_EXIST: the email is taken
    | UsernameTaken                   // the literal "user with this name exists" message
    | WrongLoginOrPassword            // API_ERROR_LOGIN_OR_PASSWORD
    | UserNotAuthorized               // API_ERROR_USER_NOT_AUTHORIZED: email not confirmed
    | CouldNotValidateCredentials     // the 401 of get_current_user
    | VerificationError               // "Verification error"
    | InvalidEmailToken               // the 422 of get_email_from_token
    | Unhandled(fault: Fault)         // an exception nothing catches

  datatype HttpError = HttpError(status: int, detail: Detail)

  datatype Response<T> = Reply(status: int, body: T) | Raise(error: HttpError)

  /** An uncaught exception, as the framework reports it. */
  function ServerError(f: Fault): HttpError {
    HttpError(InternalServerError, Unhandled(f))
  }

  /** The empty body of a 204 response. */
  datatype Empty = Empty
}

=== FILE: ilike.dfy ===
/** The database's `ILIKE` operator, which the contact search builds from the
    user's term as `%term%`. In a LIKE pattern `%` matches any run of
    characters, `_` any single character and a backslash makes the next
    character literal; ILIKE lower-cases both sides first. */
module Ilike {
  import opened Text

  /** Does the whole of `t` match the LIKE pattern `p`? */
  function LikeMatch(p: string, t: string): bool
    decreases |p| + |t|
  {
    if |p| == 0 then |t| == 0
    else if p[0] == '%' then LikeMatch(p[1..], t) || (|t| > 0 && LikeMatch(p, t[1..]))
    else if p[0] == '_' then |t| > 0 && LikeMatch(p[1..], t[1..])
    else if p[0] == '\\' && |p| > 1 then |t| > 0 && t[0] == p[1] && LikeMatch(p[2..], t[1..])
    else |t| > 0 && t[0] == p[0] && LikeMatch(p[1..], t[1..])
  }

  /** `text ILIKE pattern`. */
  function ILike(text: string, pattern: string): bool {
    LikeMatch(LowerStr(pattern), LowerStr(text))
  }

  /** The pattern `%term%` of a search for `term`. */
  function Contains(term: string): string {
    "%" + term + "%"
  }

  /** A term with no character that LIKE treats specially. */
  predicate NoWildcards(s: string) {
    forall i :: 0 <= i < |s| ==> s[i] != '%' && s[i] != '_' && s[i] != '\\'
  }

  /** `s` occurs in `t` at some position. */
  predicate IsSubstring(s: string, t: string) {
    exists i :: 0 <= i <= |t| && s <= t[i..]
  }

  lemma {:induction false} PercentMatchesAll(t: string)
    ensures LikeMatch("%", t)
    decreases |t|
  {
    if |t| > 0 {
      PercentMatchesAll(t[1..]);
    }
  }

  /** A wildcard-free pattern followed by `%` matches exactly the texts it prefixes. */
  lemma {:induction false} LiteralPrefix(s: string, t: string)
    requires NoWildcards(s)
    ensures LikeMatch(s + "%", t) <==> s <= t
    decreases |s|
  {
    if |s| == 0 {
      assert s + "%" == "%";
      PercentMatchesAll(t);
    } else {
      var p := s + "%";
      assert p[0] == s[0] && p[1..] == s[1..] + "%";
      assert NoWildcards(s[1..]);
      if |t| > 0 {
        LiteralPrefix(s[1..], t[1..]);
        if s <= t {
          assert s[1..] <= t[1..];
        }
        if t[0] == s[0] && s[1..] <= t[1..] {
          assert s == [s[0]] + s[1..];
        }
      }
    }
  }

  /** A leading `%` lets the rest of the pattern match any suffix. */
  lemma {:induction false} LeadingPercent(q: string, t: string)
    ensures LikeMatch("%" + q, t) <==> exists i :: 0 <= i <= |t| && LikeMatch(q, t[i..])
    decreases |t|
  {
    var p := "%" + q;
    assert p[0] == '%' && p[1..] == q;
    if |t| == 0 {
      assert t[0..] == t;
    } else {
      LeadingPercent(q, t[1..]);
      if LikeMatch(p, t[1..]) {
        var i :| 0 <= i <= |t[1..]| && LikeMatch(q, t[1..][i..]);
        assert t[1..][i..] == t[i + 1..];
      }
      if exists i :: 0 <= i <= |t| && LikeMatch(q, t[i..]) {
        var i :| 0 <= i <= |t| && LikeMatch(q, t[i..]);
        if i == 0 {
          assert t[0..] == t;
        } else {
          assert t[1..][i - 1..] == t[i..];
        }
      }
    }
  }

  /** Searching with a term free of wildcards is a case-insensitive substring
      test: `text ILIKE '%term%'` holds exactly when the lower-cased term occurs
      in the lower-cased text. */
  lemma ContainsIsSubstring(term: string, text: string)
    requires NoWildcards(term)
    ensures ILike(text, Contains(term)) <==> IsSubstring(LowerStr(term), LowerStr(text))
  {
    var s := LowerStr(term);
    var t := LowerStr(text);
    LowerStrAppend("%" + term, "%");
    LowerStrAppend("%", term);
    assert LowerStr(Contains(term)) == "%" + (s + "%");
    assert NoWildcards(s);
    LeadingPercent(s + "%", t);
    if ILike(text, Contains(term)) {
      var i :| 0 <= i <= |t| && LikeMatch(s + "%", t[i..]);
      LiteralPrefix(s, t[i..]);
    }
    if IsSubstring(s, t) {
      var i :| 0 <= i <= |t| && s <= t[i..];
      LiteralPrefix(s, t[i..]);
    }
  }
}

=== FILE: jwt.dfy ===
/** JSON Web Tokens as python-jose signs and checks them with a shared
    secret (HS256). Signing is idealised: a token either carries the claims
    it was signed with together with the key that signed it, or it is text
    that does not parse as a token. Times are whole seconds since the epoch. */
module Jwt {
  import opened Wrappers

  /** The registered claims the core reads or writes. `scope` is a private
      claim. A claim a token does not carry is `None`. */
  datatype Claims = Claims(sub: Option<string>, scope: Option<string>, iat: Option<int>, exp: Option<int>)

  datatype Token = Signed(claims: Claims, key: string) | Garbage(text: string)

  /** Why `jwt.decode` raised a `JWTError`. */
  datatype JwtError = Malformed | BadSignature | Expired

  /** `jwt.encode(claims, key)`. */
  function Encode(claims: Claims, key: string): Token {
    Signed(claims, key)
  }

  /** A token with an `exp` claim is expired once `now` is past it; the
      second named by `exp` itself is still valid. */
  predicate ExpiredAt(c: Claims, now: int) {
    c.exp.Some? && c.exp.value < now
  }

  /** `jwt.decode(token, key)`: the claims of a token signed with `key` that
      has not expired. */
  function Decode(token: Token, key: string, now: int): (r: Result<Claims, JwtError>)
    ensures r.Success? <==> token.Signed? && token.key == key && !ExpiredAt(token.claims, now)
    ensures r.Success? ==> Encode(r.value, key) == token
    ensures r.Failure? && token.Signed? && token.key == key ==> r.error == Expired
  {
    match token
    case Garbage(_) => Failure(Malformed)
    case Signed(c, k) =>
      if k != key then Failure(BadSignature)
      else if ExpiredAt(c, now) then Failure(Expired)
      else Success(c)
  }

  /** Decoding what was encoded gives back the claims, until they expire. */
  lemma DecodeEncode(c: Claims, key: string, now: int)
    ensures Decode(Encode(c, key), key, now) == if ExpiredAt(c, now) then Failure(Expired) else Success(c)
  {
  }

  /** Nothing signed with another key decodes. */
  lemma WrongKeyRejected(c: Claims, signer: string, key: string, now: int)
    requires signer != key
    ensures Decode(Encode(c, signer), key, now) == Failure(BadSignature)
  {
  }
}

=== FILE: models.dfy ===
/** The two tables of the relational store, `users` and `contacts`, and the
    constraints their schema declares. The store is a plain value: each table
    is a map from primary key to row, and each has the sequence that hands
    out its next primary key. */
module Models {
  import opened Wrappers
  import opened Calendar

  /** Column widths of the `contacts` table. */
  const FirstNameWidth := 50
  const LastNameWidth := 50
  const EmailWidth := 100
  const PhoneNumberWidth := 20
  const AdditionalDataWidth := 150

  /** Column width of `users.avatar`. */
  const AvatarWidth := 255

  /** A row of `contacts`. `owner` is the `user_id` foreign key. */
  datatype Contact = Contact(
    id: int,
    firstName: string,
    lastName: string,
    email: string,
    phoneNumber: string,
    birthday: Date,
    additionalData: Option<string>,
    owner: int)

  /** A row of `users`. */
  datatype User = User(
    id: int,
    username: string,
    email: string,
    hashedPassword: string,
    avatar: Option<string>,
    confirmed: bool)

  /** The whole store. */
  datatype Db = Db(
    users: map<int, User>,
    contacts: map<int, Contact>,
    nextUserId: int,
    nextContactId: int)

  /** The values a `contacts` row may hold: the string widths and a real date. */
  predicate FitsContactColumns(c: Contact) {
    && |c.firstName| <= FirstNameWidth
    && |c.lastName| <= LastNameWidth
    && |c.email| <= EmailWidth
    && |c.phoneNumber| <= PhoneNumberWidth
    && ValidDate(c.birthday)
    && (c.additionalData.Some? ==> |c.additionalData.value| <= AdditionalDataWidth)
  }

  predicate FitsUserColumns(u: User) {
    u.avatar.Some? ==> |u.avatar.value| <= AvatarWidth
  }

  /** No two users share a username, and no two share an email. */
  predicate UniqueUsers(users: map<int, User>) {
    forall a, b :: a in users && b in users && a != b ==>
      users[a].username != users[b].username && users[a].email != users[b].email
  }

  /** Everything the schema guarantees of a store. */
  predicate Valid(db: Db) {
    && 1 <= db.nextUserId
    && 1 <= db.nextContactId
    && (forall k :: k in db.users ==> db.users[k].id == k && 1 <= k < db.nextUserId && FitsUserColumns(db.users[k]))
    && UniqueUsers(db.users)
    && (forall k :: k in db.contacts ==>
          && db.contacts[k].id == k
          && 1 <= k < db.nextContactId
          && db.contacts[k].owner in db.users
          && FitsContactColumns(db.contacts[k]))
  }

  /** The store as the migrations leave it. */
  function EmptyDb(): (db: Db)
    ensures Valid(db)
    ensures db.users == map[] && db.contacts == map[]
  {
    Db(map[], map[], 1, 1)
  }

  /** The contacts a user owns. */
  function OwnedBy(db: Db, user: int): set<int> {
    set k | k in db.contacts && db.contacts[k].owner == user
  }

  /** Deleting a user row: `ondelete="CASCADE"` on `contacts.user_id` deletes
      every contact that references it in the same statement. */
  function DeleteUser(db: Db, user: int): (r: Db)
    ensures Valid(db) ==> Valid(r)
    ensures user !in r.users && OwnedBy(r, user) == {}
    ensures forall k :: k in db.users && k != user ==> k in r.users && r.users[k] == db.users[k]
    ensures forall k :: k in db.contacts && db.contacts[k].owner != user ==>
              k in r.contacts && r.contacts[k] == db.contacts[k]
    ensures forall k :: k in r.contacts ==> k in db.contacts
  {
    var contacts := map k | k in db.contacts && db.contacts[k].owner != user :: db.contacts[k];
    db.(users := db.users - {user}, contacts := contacts)
  }
}

=== FILE: query.dfy ===
/** What a `SELECT … WHERE … OFFSET … LIMIT …` over one table returns, with the
    table held as a map from primary key to row. Primary keys come from a
    sequence that starts at 1 and hands out each key once, so every key of a
    table lies below the sequence's next value. The queries of the core carry
    no `ORDER BY`; the model reads rows in ascending primary key. */
module Query {
  import opened Wrappers

  /** The keys of `table` that lie in `[1, next)`, ascending. */
  function KeysBelow<T>(table: map<int, T>, next: int): (ks: seq<int>)
    ensures forall i :: 0 <= i < |ks| ==> 1 <= ks[i] < next && ks[i] in table
    ensures forall i, j :: 0 <= i < j < |ks| ==> ks[i] < ks[j]
    ensures forall k :: 1 <= k < next && k in table ==> k in ks
    decreases next
  {
    if next <= 1 then []
    else
      var prefix := KeysBelow(table, next - 1);
      if next - 1 in table then prefix + [next - 1] else prefix
  }

  /** The rows whose keys lie in `[1, next)`, in ascending key order. */
  function TableRows<T>(table: map<int, T>, next: int): (r: seq<T>)
  {
    var ks := KeysBelow(table, next);
    seq(|ks|, i requires 0 <= i < |ks| => table[ks[i]])
  }

  /** Every row below `next` is listed, and nothing else is. */
  lemma TableRowsMembers<T>(table: map<int, T>, next: int)
    ensures forall k {:trigger table[k]} :: 1 <= k < next && k in table ==> table[k] in TableRows(table, next)
    ensures forall x :: x in TableRows(table, next) ==> x in table.Values
  {
    var ks := KeysBelow(table, next);
    var r := TableRows(table, next);
    forall k | 1 <= k < next && k in table
      ensures table[k] in r
    {
      var i :| 0 <= i < |ks| && ks[i] == k;
      assert r[i] == table[k];
    }
  }

  /** The rows that satisfy a WHERE clause, in their original order. */
  function Filter<T>(rows: seq<T>, keep: T -> bool): (r: seq<T>)
    ensures |r| <= |rows|
    ensures forall i :: 0 <= i < |r| ==> r[i] in rows && keep(r[i])
    ensures forall i :: 0 <= i < |rows| && keep(rows[i]) ==> rows[i] in r
  {
    if rows == [] then []
    else (if keep(rows[0]) then [rows[0]] else []) + Filter(rows[1..], keep)
  }

  /** Two WHERE clauses that agree on every row select the same rows. */
  lemma {:induction false} FilterCongruent<T>(rows: seq<T>, p: T -> bool, q: T -> bool)
    requires forall i :: 0 <= i < |rows| ==> p(rows[i]) == q(rows[i])
    ensures Filter(rows, p) == Filter(rows, q)
  {
    if rows != [] {
      assert forall i :: 0 <= i < |rows[1..]| ==> rows[1..][i] == rows[i + 1];
      FilterCongruent(rows[1..], p, q);
    }
  }

  /** Rows listed in strictly ascending key. */
  predicate AscendingBy<T>(rows: seq<T>, key: T -> int) {
    forall i, j :: 0 <= i < j < |rows| ==> key(rows[i]) < key(rows[j])
  }

  /** A table whose rows carry their own primary key lists them in ascending key. */
  lemma TableRowsAscending<T>(table: map<int, T>, next: int, key: T -> int)
    requires forall k :: k in table ==> key(table[k]) == k
    ensures AscendingBy(TableRows(table, next), key)
  {
    var ks := KeysBelow(table, next);
    var r := TableRows(table, next);
    assert forall i :: 0 <= i < |r| ==> key(r[i]) == ks[i];
  }

  lemma {:induction false} FilterAscending<T>(rows: seq<T>, keep: T -> bool, key: T -> int)
    requires AscendingBy(rows, key)
    ensures AscendingBy(Filter(rows, keep), key)
    decreases |rows|
  {
    if rows != [] {
      FilterAscending(rows[1..], keep, key);
      var tail := Filter(rows[1..], keep);
      forall i | 0 <= i < |tail|
        ensures key(rows[0]) < key(tail[i])
      {
        assert tail[i] in rows[1..];
        var j :| 0 <= j < |rows[1..]| && rows[1..][j] == tail[i];
        assert rows[j + 1] == tail[i];
      }
    }
  }

  /** In ascending order the last key exceeds the first by at least the count. */
  lemma {:induction false} AscendingSpread<T>(rows: seq<T>, key: T -> int)
    requires AscendingBy(rows, key) && |rows| > 0
    ensures key(rows[|rows| - 1]) >= key(rows[0]) + |rows| - 1
    decreases |rows|
  {
    if |rows| > 1 {
      AscendingSpread(rows[..|rows| - 1], key);
      assert rows[..|rows| - 1][0] == rows[0];
    }
  }

  /** Rows in ascending key that all share one key are at most one row: the
      case in which `scalar_one_or_none()` does not raise. */
  lemma AtMostOne<T>(rows: seq<T>, key: T -> int, v: int)
    requires AscendingBy(rows, key)
    requires forall i :: 0 <= i < |rows| ==> key(rows[i]) == v
    ensures |rows| <= 1
  {
    if |rows| > 0 {
      AscendingSpread(rows, key);
    }
  }

  /** Rows in ascending key whose keys all lie in `s` are no more than `s` has. */
  lemma {:induction false} AscendingCount<T>(rows: seq<T>, key: T -> int, s: set<int>)
    requires AscendingBy(rows, key)
    requires forall i :: 0 <= i < |rows| ==> key(rows[i]) in s
    ensures |rows| <= |s|
    decreases |rows|
  {
    if rows != [] {
      var rest := rows[1..];
      assert forall i :: 0 <= i < |rest| ==> key(rest[i]) in s - {key(rows[0])} by {
        forall i | 0 <= i < |rest|
          ensures key(rest[i]) in s - {key(rows[0])}
        {
          assert rest[i] == rows[i + 1];
        }
      }
      AscendingCount(rest, key, s - {key(rows[0])});
    }
  }

  /** SQLAlchemy's `scalar_one_or_none()` on a result of at most one row. */
  function OneOrNone<T>(rows: seq<T>): (r: Option<T>)
    requires |rows| <= 1
    ensures r.Some? <==> |rows| == 1
    ensures r.Some? ==> r.value == rows[0]
  {
    if |rows| == 0 then None else Some(rows[0])
  }

  /** `OFFSET skip LIMIT limit`. */
  function Page<T>(rows: seq<T>, skip: nat, limit: nat): (r: seq<T>)
    ensures |r| <= limit
    ensures skip + limit <= |rows| ==> |r| == limit
    ensures skip < |rows| <= skip + limit ==> |r| == |rows| - skip
    ensures forall i :: 0 <= i < |r| ==> skip + i < |rows| && r[i] == rows[skip + i]
  {
    if skip >= |rows| then []
    else if skip + limit >= |rows| then rows[skip..]
    else rows[skip..skip + limit]
  }

  /** A page of rows in ascending key is itself in ascending key, so it
      lists no row twice. */
  lemma PageAscending<T>(rows: seq<T>, skip: nat, limit: nat, key: T -> int)
    requires AscendingBy(rows, key)
    ensures AscendingBy(Page(rows, skip, limit), key)
  {
    var r := Page(rows, skip, limit);
    forall i, j | 0 <= i < j < |r|
      ensures key(r[i]) < key(r[j])
    {
      assert r[i] == rows[skip + i] && r[j] == rows[skip + j];
    }
  }

  /** Two consecutive pages are the page that spans both. */
  lemma PagesConcatenate<T>(rows: seq<T>, skip: nat, a: nat, b: nat)
    ensures Page(rows, skip, a) + Page(rows, skip + a, b) == Page(rows, skip, a + b)
  {
  }

  /** A first page at least as long as the result is the whole result. */
  lemma FirstPageIsAll<T>(rows: seq<T>, limit: nat)
    requires |rows| <= limit
    ensures Page(rows, 0, limit) == rows
  {
  }
}

=== FILE: redis_service.dfy ===
/** `RedisService`: the user cache. Each entry lives under `user:<id>` as a
    JSON document and expires a fixed number of seconds after it was written.
    A Redis error is caught and logged, so an unreachable server behaves as
    an empty cache that ignores writes. */
module RedisService {
  import opened Wrappers
  import opened Faults
  import opened Text
  import opened Models

  /** `REDIS_USER_CACHE_TTL`: seconds an entry lives. */
  const UserCacheTtl := 1800

  /** The user fields a cache entry carries. */
  datatype CachedUser = CachedUser(id: int, email: string, username: string, confirmed: bool, avatar: Option<string>)

  /** What a key holds: a user document, or text `json.loads` refuses. */
  datatype Payload = Json(user: CachedUser) | Malformed

  /** A stored value and the second at which Redis drops it. */
  datatype Entry = Entry(payload: Payload, expiresAt: int)

  /** The server's keyspace, and whether the server answers at all. */
  datatype Redis = Redis(entries: map<string, Entry>, available: bool)

  /** The key of a user's entry: `f"user:{user_id}"`. */
  function UserKey(id: int): string {
    "user:" + IntToDecimal(id)
  }

  /** Different users never share a key. */
  lemma UserKeyInjective(a: int, b: int)
    ensures UserKey(a) == UserKey(b) <==> a == b
  {
    if UserKey(a) == UserKey(b) {
      assert UserKey(a)[5..] == IntToDecimal(a);
      assert UserKey(b)[5..] == IntToDecimal(b);
      IntToDecimalInjective(a, b);
    }
  }

  /** The fields of a user row the cache keeps. */
  function Snapshot(u: User): (c: CachedUser)
    ensures c.id == u.id && c.email == u.email && c.username == u.username
    ensures c.confirmed == u.confirmed && c.avatar == u.avatar
  {
    CachedUser(u.id, u.email, u.username, u.confirmed, u.avatar)
  }

  /** `get_user_from_cache`: the user stored under the key, while the entry
      lives; `None` for a missing, expired or unreadable entry and for an
      unreachable server. */
  function GetUserFromCache(redis: Redis, id: int, now: int): (r: Option<CachedUser>)
    ensures r.Some? <==>
              && redis.available
              && UserKey(id) in redis.entries
              && now < redis.entries[UserKey(id)].expiresAt
              && redis.entries[UserKey(id)].payload.Json?
    ensures r.Some? ==> r.value == redis.entries[UserKey(id)].payload.user
  {
    if !redis.available || UserKey(id) !in redis.entries then None
    else
      var e := redis.entries[UserKey(id)];
      if now >= e.expiresAt then None
      else match e.payload
        case Malformed => None
        case Json(u) => Some(u)
  }

  /** The attribute names a `User` row object has: its columns and the
      `contacts` back-reference. */
  const UserAttributes: set<string> :=
    {"id", "username", "email", "hashed_password", "created_at", "updated_at", "avatar", "confirmed", "contacts"}

  /** The attributes `cache_user` reads, in the order it reads them. */
  const CachedFieldsAsWritten: seq<string> :=
    ["id", "email", "username", "confirmed", "avatar", "created_at", "refresh_token"]

  /** The first attribute of `fields` a `User` does not have, if any. */
  function FirstMissingAttribute(fields: seq<string>): (r: Option<string>)
    ensures r.Some? <==> exists i :: 0 <= i < |fields| && fields[i] !in UserAttributes
    ensures r.Some? ==> r.value in fields && r.value !in UserAttributes
  {
    if fields == [] then None
    else if fields[0] !in UserAttributes then Some(fields[0])
    else
      var rest := FirstMissingAttribute(fields[1..]);
      assert forall i :: 1 <= i < |fields| ==> fields[i] == fields[1..][i - 1];
      rest
  }

  /** `cache_user` as written: building the document reads
      `user.refresh_token`, which a `User` does not have. The
      `AttributeError` is not a Redis error, so it escapes, before anything
      is written. */
  function CacheUserAsWritten(redis: Redis, u: User, now: int): (r: Result<Redis, Fault>)
    ensures r == Failure(AttributeError)
  {
    match FirstMissingAttribute(CachedFieldsAsWritten)
    case Some(_) => Failure(AttributeError)
    case None =>
      if !redis.available then Success(redis)
      else Success(redis.(entries := redis.entries[UserKey(u.id) := Entry(Json(Snapshot(u)), now + UserCacheTtl)]))
  }

  /** `cache_user` with the document built from attributes a `User` has:
      `SETEX user:<id>` with the user's snapshot, for `UserCacheTtl`
      seconds. */
  function CacheUser(redis: Redis, u: User, now: int): (r: Redis)
    ensures r.available == redis.available
    ensures redis.available ==> r.entries == redis.entries[UserKey(u.id) := Entry(Json(Snapshot(u)), now + UserCacheTtl)]
    ensures !redis.available ==> r == redis
  {
    if !redis.available then redis
    else redis.(entries := redis.entries[UserKey(u.id) := Entry(Json(Snapshot(u)), now + UserCacheTtl)])
  }

  /** `invalidate_user_cache`: `DEL user:<id>`. */
  function InvalidateUserCache(redis: Redis, id: int): (r: Redis)
    ensures r.available == redis.available
    ensures redis.available ==> r.entries == redis.entries - {UserKey(id)}
    ensures !redis.available ==> r == redis
  {
    if !redis.available then redis
    else redis.(entries := redis.entries - {UserKey(id)})
  }

  /** A cached user reads back for `UserCacheTtl` seconds after the write,
      and not after. */
  lemma CacheThenGet(redis: Redis, u: User, written: int, now: int)
    ensures GetUserFromCache(CacheUser(redis, u, written), u.id, now) ==
              if redis.available && now < written + UserCacheTtl then Some(Snapshot(u)) else None
  {
  }

  /** After an invalidation the user is not in the cache. */
  lemma InvalidateThenGet(redis: Redis, id: int, now: int)
    ensures GetUserFromCache(InvalidateUserCache(redis, id), id, now) == None
  {
  }

  /** Writing or deleting one user's entry leaves every other user's entry
      as it was. */
  lemma OtherUsersUntouched(redis: Redis, u: User, id: int, written: int, now: int)
    requires id != u.id
    ensures GetUserFromCache(CacheUser(redis, u, written), id, now) == GetUserFromCache(redis, id, now)
    ensures GetUserFromCache(InvalidateUserCache(redis, u.id), id, now) == GetUserFromCache(redis, id, now)
  {
    UserKeyInjective(id, u.id);
  }

  /** An entry live now was live at every earlier moment. */
  lemma LiveEarlier(redis: Redis, id: int, before: int, now: int)
    requires before <= now
    requires GetUserFromCache(redis, id, now).Some?
    ensures GetUserFromCache(redis, id, before) == GetUserFromCache(redis, id, now)
  {
  }
}

=== FILE: text.dfy ===
/** The Python string builtins the core relies on: `str(int)`, `int(str)` and
    the lower-casing a case-insensitive database comparison applies. */
module Text {
  import opened Wrappers

  predicate IsDigit(c: char) {
    '0' <= c <= '9'
  }

  predicate AllDigits(s: string) {
    forall i :: 0 <= i < |s| ==> IsDigit(s[i])
  }

  function DigitChar(d: nat): char
    requires d < 10
  {
    ('0' as int + d) as char
  }

  function DigitValue(c: char): nat
    requires IsDigit(c)
  {
    c as int - '0' as int
  }

  /** The decimal rendering of a natural number: no sign, no leading zeros. */
  function NatToDecimal(n: nat): (s: string)
    ensures |s| > 0 && AllDigits(s)
    ensures s[0] == '0' ==> n == 0
    decreases n
  {
    if n < 10 then [DigitChar(n)] else NatToDecimal(n / 10) + [DigitChar(n % 10)]
  }

  /** The value of a non-empty run of decimal digits, read most significant first. */
  function DigitsValue(s: string): nat
    requires AllDigits(s)
    decreases |s|
  {
    if |s| == 0 then 0 else DigitsValue(s[..|s| - 1]) * 10 + DigitValue(s[|s| - 1])
  }

  /** Python's `str(i)` for an int (and the `{i}` of an f-string). */
  function IntToDecimal(i: int): string {
    if i < 0 then "-" + NatToDecimal(-i) else NatToDecimal(i)
  }

  /** Python's `int(s)` restricted to ASCII literals: an optional sign followed
      by one or more decimal digits; leading zeros are accepted. `None` stands
      for the `ValueError` Python raises on anything else. */
  function ParseInt(s: string): Option<int> {
    if |s| > 0 && (s[0] == '-' || s[0] == '+') then
      if |s| > 1 && AllDigits(s[1..]) then
        Some(if s[0] == '-' then 0 - DigitsValue(s[1..]) as int else DigitsValue(s[1..]))
      else None
    else if |s| > 0 && AllDigits(s) then Some(DigitsValue(s))
    else None
  }

  lemma {:induction false} DigitsValueOfDecimal(n: nat)
    ensures DigitsValue(NatToDecimal(n)) == n
    decreases n
  {
    if n >= 10 {
      var s := NatToDecimal(n);
      DigitsValueOfDecimal(n / 10);
      assert s[..|s| - 1] == NatToDecimal(n / 10);
    }
  }

  /** `int(str(i)) == i`: the decimal rendering parses back to the same integer. */
  lemma ParseIntOfDecimal(i: int)
    ensures ParseInt(IntToDecimal(i)) == Some(i)
  {
    if i < 0 {
      DigitsValueOfDecimal(-i);
      assert IntToDecimal(i)[1..] == NatToDecimal(-i);
    } else {
      DigitsValueOfDecimal(i);
    }
  }

  /** Distinct integers render to distinct strings. */
  lemma IntToDecimalInjective(a: int, b: int)
    ensures IntToDecimal(a) == IntToDecimal(b) ==> a == b
  {
    ParseIntOfDecimal(a);
    ParseIntOfDecimal(b);
  }

  /** A string holding a character that is neither a digit nor a sign is not an
      integer literal. */
  lemma ParseIntRejects(s: string, k: nat)
    requires k < |s| && !IsDigit(s[k]) && s[k] != '-' && s[k] != '+'
    ensures ParseInt(s) == None
  {
  }

  /** The lower-casing of one character: ASCII upper-case letters only. */
  function Lower(c: char): char {
    if 'A' <= c <= 'Z' then (c as int + 32) as char else c
  }

  function LowerStr(s: string): (r: string)
    ensures |r| == |s|
    ensures forall i :: 0 <= i < |s| ==> r[i] == Lower(s[i])
  {
    seq(|s|, i requires 0 <= i < |s| => Lower(s[i]))
  }

  lemma LowerStrAppend(a: string, b: string)
    ensures LowerStr(a + b) == LowerStr(a) + LowerStr(b)
  {
  }
}

=== FILE: user_repository.dfy ===
/** `UserRepository`: lookups and writes on the `users` table. */
module UserRepository {
  import opened Wrappers
  import opened Faults
  import opened Models
  import opened Query

  /** The fields of a registration request (`UserCreate`). By the time it
      reaches the repository, `password` holds the hash. */
  datatype UserCreate = UserCreate(username: string, email: string, password: string)

  function UserIdOf(u: User): int {
    u.id
  }

  /** The `users` table, row by row. */
  function UserRows(db: Db): seq<User> {
    TableRows(db.users, db.nextUserId)
  }

  /** The rows a filter on a column no two users share keeps: at most one,
      and one exactly when some user passes the filter. */
  lemma {:induction false} SelectUserRows(db: Db, keep: User -> bool)
    requires Valid(db)
    requires forall a, b :: a in db.users && b in db.users && keep(db.users[a]) && keep(db.users[b]) ==> a == b
    ensures |Filter(UserRows(db), keep)| <= 1
    ensures |Filter(UserRows(db), keep)| == 1 <==> exists k :: k in db.users && keep(db.users[k])
    ensures |Filter(UserRows(db), keep)| == 1 ==>
              var u := Filter(UserRows(db), keep)[0];
              u.id in db.users && db.users[u.id] == u && keep(u)
  {
    var rows := Filter(UserRows(db), keep);
    TableRowsMembers(db.users, db.nextUserId);
    TableRowsAscending(db.users, db.nextUserId, UserIdOf);
    FilterAscending(UserRows(db), keep, UserIdOf);
    if |rows| == 0 {
      forall k | k in db.users
        ensures !keep(db.users[k])
      {
        var all := UserRows(db);
        assert db.users[k] in all;
        var i :| 0 <= i < |all| && all[i] == db.users[k];
      }
    } else {
      var first := rows[0];
      assert first in rows;
      forall i | 0 <= i < |rows|
        ensures UserIdOf(rows[i]) == first.id
      {
        assert rows[i] in rows;
      }
      AtMostOne(rows, UserIdOf, first.id);
    }
  }

  /** `select(User).filter_by(...)` followed by `scalar_one_or_none()`, for
      a filter on a column no two users share. */
  function SelectUser(db: Db, keep: User -> bool): (r: Option<User>)
    requires Valid(db)
    requires forall a, b :: a in db.users && b in db.users && keep(db.users[a]) && keep(db.users[b]) ==> a == b
    ensures r.Some? <==> exists k :: k in db.users && keep(db.users[k])
    ensures r.Some? ==> r.value.id in db.users && db.users[r.value.id] == r.value && keep(r.value)
  {
    SelectUserRows(db, keep);
    OneOrNone(Filter(UserRows(db), keep))
  }

  /** `get_user_by_id`. */
  function GetUserById(db: Db, id: int): (r: Option<User>)
    requires Valid(db)
    ensures r == (if id in db.users then Some(db.users[id]) else None)
  {
    SelectUser(db, (u: User) => u.id == id)
  }

  /** Some user has this username. */
  predicate HasUsername(db: Db, username: string) {
    exists k :: k in db.users && db.users[k].username == username
  }

  /** Some user has this email. */
  predicate HasEmail(db: Db, email: string) {
    exists k :: k in db.users && db.users[k].email == email
  }

  /** `get_user_by_username`. */
  function GetUserByUsername(db: Db, username: string): (r: Option<User>)
    requires Valid(db)
    ensures r.Some? <==> HasUsername(db, username)
    ensures r.Some? ==> r.value.username == username && r.value.id in db.users && db.users[r.value.id] == r.value
  {
    SelectUser(db, (u: User) => u.username == username)
  }

  /** `get_user_by_email`. */
  function GetUserByEmail(db: Db, email: string): (r: Option<User>)
    requires Valid(db)
    ensures r.Some? <==> HasEmail(db, email)
    ensures r.Some? ==> r.value.email == email && r.value.id in db.users && db.users[r.value.id] == r.value
  {
    SelectUser(db, (u: User) => u.email == email)
  }

  /** The row `create_user` inserts: the request's fields, the hash as
      `hashed_password`, the avatar, and `confirmed` at its default. */
  function NewUser(db: Db, body: UserCreate, avatar: Option<string>): User {
    User(db.nextUserId, body.username, body.email, body.password, avatar, false)
  }

  /** `create_user`: insert a user. The database refuses an avatar wider than
      its column, and a username or email another user already has. */
  function CreateUser(db: Db, body: UserCreate, avatar: Option<string>): (r: Result<(Db, User), Fault>)
    requires Valid(db)
    ensures r.Success? <==>
              FitsUserColumns(NewUser(db, body, avatar)) && !HasUsername(db, body.username) && !HasEmail(db, body.email)
    ensures r.Failure? ==>
              r.error == (if FitsUserColumns(NewUser(db, body, avatar)) then IntegrityError else DataError)
    ensures r.Success? ==>
              var (db', u) := r.value;
              && Valid(db')
              && u.id !in db.users
              && u.username == body.username && u.email == body.email
              && u.hashedPassword == body.password && u.avatar == avatar && !u.confirmed
              && db'.users == db.users[u.id := u]
              && db'.contacts == db.contacts && db'.nextContactId == db.nextContactId
  {
    var u := NewUser(db, body, avatar);
    if !FitsUserColumns(u) then Failure(DataError)
    else if HasUsername(db, body.username) || HasEmail(db, body.email) then Failure(IntegrityError)
    else Success((db.(users := db.users[u.id := u], nextUserId := u.id + 1), u))
  }

  /** After a registration, each of the three lookups finds the new user. */
  lemma CreateThenFind(db: Db, body: UserCreate, avatar: Option<string>)
    requires Valid(db)
    requires CreateUser(db, body, avatar).Success?
    ensures var (db', u) := CreateUser(db, body, avatar).value;
            && GetUserById(db', u.id) == Some(u)
            && GetUserByUsername(db', body.username) == Some(u)
            && GetUserByEmail(db', body.email) == Some(u)
  {
    var (db', u) := CreateUser(db, body, avatar).value;
    assert db'.users[u.id].username == body.username;
    assert db'.users[u.id].email == body.email;
  }

  /** A second registration with a taken username or email is refused. */
  lemma DuplicateRefused(db: Db, body: UserCreate, avatar: Option<string>, other: UserCreate, avatar2: Option<string>)
    requires Valid(db)
    requires CreateUser(db, body, avatar).Success?
    requires other.username == body.username || other.email == body.email
    ensures CreateUser(CreateUser(db, body, avatar).value.0, other, avatar2).Failure?
  {
    var (db', u) := CreateUser(db, body, avatar).value;
    assert db'.users[u.id] == u;
  }

  /** `confirmed_email`: set the flag of the user with this email. With no
      such user, setting an attribute on `None` raises. */
  function ConfirmedEmail(db: Db, email: string): (r: Result<Db, Fault>)
    requires Valid(db)
    ensures r.Failure? <==> !HasEmail(db, email)
    ensures r.Failure? ==> r.error == AttributeError
    ensures r.Success? ==>
              && Valid(r.value)
              && r.value.contacts == db.contacts
              && r.value.nextUserId == db.nextUserId && r.value.nextContactId == db.nextContactId
              && r.value.users.Keys == db.users.Keys
              && forall k :: k in db.users ==>
                   r.value.users[k] == (if db.users[k].email == email then db.users[k].(confirmed := true) else db.users[k])
  {
    match GetUserByEmail(db, email)
    case None => Failure(AttributeError)
    case Some(u) => Success(db.(users := db.users[u.id := u.(confirmed := true)]))
  }

  /** `once` sets the flag of every user with `email` in `db`. */
  ghost predicate ConfirmsIn(db: Db, email: string, once: Db) {
    && once.contacts == db.contacts
    && once.nextUserId == db.nextUserId && once.nextContactId == db.nextContactId
    && once.users.Keys == db.users.Keys
    && forall k :: k in db.users ==>
         once.users[k] == (if db.users[k].email == email then db.users[k].(confirmed := true) else db.users[k])
  }

  /** Setting the flag a second time changes nothing. */
  lemma ConfirmsSettle(db: Db, email: string, once: Db, twice: Db)
    requires ConfirmsIn(db, email, once) && ConfirmsIn(once, email, twice)
    ensures twice == once
  {
    forall k | k in twice.users
      ensures twice.users[k] == once.users[k]
    {
    }
    assert twice.users == once.users;
  }

  /** Confirming twice leaves the store as confirming once. */
  lemma ConfirmIdempotent(db: Db, email: string)
    requires Valid(db)
    requires ConfirmedEmail(db, email).Success?
    ensures ConfirmedEmail(ConfirmedEmail(db, email).value, email) == ConfirmedEmail(db, email)
  {
    var once := ConfirmedEmail(db, email).value;
    assert ConfirmsIn(db, email, once);
    assert HasEmail(once, email) by {
      var k :| k in db.users && db.users[k].email == email;
      assert once.users[k].email == email;
    }
    var twice := ConfirmedEmail(once, email).value;
    ConfirmsSettle(db, email, once, twice);
  }

  /** `update_avatar_url`: set the avatar of the user with this email and
      return the user. */
  function UpdateAvatarUrl(db: Db, email: string, url: string): (r: Result<(Db, User), Fault>)
    requires Valid(db)
    ensures !HasEmail(db, email) ==> r == Failure(AttributeError)
    ensures HasEmail(db, email) && |url| > AvatarWidth ==> r == Failure(DataError)
    ensures r.Success? ==>
              var (db', u) := r.value;
              && Valid(db')
              && u.id in db.users && u == db.users[u.id].(avatar := Some(url))
              && u.email == email
              && db'.users == db.users[u.id := u]
              && db'.contacts == db.contacts && db'.nextContactId == db.nextContactId
    ensures HasEmail(db, email) && |url| <= AvatarWidth ==> r.Success?
  {
    match GetUserByEmail(db, email)
    case None => Failure(AttributeError)
    case Some(u) =>
      var u' := u.(avatar := Some(url));
      if !FitsUserColumns(u') then Failure(DataError)
      else Success((db.(users := db.users[u.id := u']), u'))
  }
}

=== FILE: user_service.dfy ===
/** `UserService`: the layer between the routes and `UserRepository`. Apart
    from registration it forwards each call unchanged. */
module UserService {
  import opened Wrappers
  import opened Faults
  import opened Models
  import opened UserRepository

  /** `create_user`: look up a Gravatar image for the email and register the
      user with it. `gravatar` is the outcome of that lookup, `None` when it
      raised; a failed lookup never stops the registration. */
  function CreateUser(db: Db, body: UserCreate, gravatar: Option<string>): (r: Result<(Db, User), Fault>)
    requires Valid(db)
    ensures r.Success? ==> r.value.1.avatar == gravatar && !r.value.1.confirmed && Valid(r.value.0)
    ensures r.Success? ==>
              var (db', u) := r.value;
              && u.id !in db.users && db'.users == db.users[u.id := u]
              && db'.contacts == db.contacts && db'.nextContactId == db.nextContactId
              && u.username == body.username && u.email == body.email && u.hashedPassword == body.password
    ensures r.Success? <==>
              !HasUsername(db, body.username) && !HasEmail(db, body.email)
              && (gravatar.Some? ==> |gravatar.value| <= AvatarWidth)
    ensures gravatar.None? && !HasUsername(db, body.username) && !HasEmail(db, body.email) ==> r.Success?
  {
    UserRepository.CreateUser(db, body, gravatar)
  }
}

=== FILE: wrappers.dfy ===
/** Option and Result, the failure-carrying values every layer of the model returns. */
module Wrappers {

  /** A value that may be missing: Python's `X | None`. */
  datatype Option<+T> = None | Some(value: T)

  /** A value or the error that replaced it: a Python call that returns or raises. */
  datatype Result<+T, +E> = Success(value: T) | Failure(error: E)
}
